=== FILE: README.md ===
# dbtest: tag registry, option checks and run-log naming

This project models three pieces of the `dbtest` database test framework in
Dafny and proves properties about them.

- **The tag registry** (`dbtests/case.py`):
  - A `Tag` is a node of a classification hierarchy. It has a name, a level,
    parent and child tags, and the test cases labelled with it.
  - A `Case` carries the set of its tags.
  - `CaseManage` keeps one bucket of tags per level (`root_tags`). It
    registers a tag at a level under a parent one level up, re-levels or
    re-parents a tag, links cases to tags, and lists the transitive
    descendants and ancestors of a tag.
- **The option check of the command-line entry point** (`dbtests/main.py`):
  `check_opts` rejects option combinations and resolves the configuration
  file path. `ans_yes` classifies a yes/no answer.
- **The run-log naming of the test frame** (`dbtests/frame.py`):
  - whether tests are run, and whether the run only sets an environment up;
  - the name and place of the run's log directory;
  - the random suffix of that name.

Modules, one per file:

- `PyValues` (`pyvalues.dfy`): the Python conventions the code relies on.
  These are `None`, the truthiness of optional strings and lists,
  `startswith`, negative list indexing, and `os.path.join`.
- `Tags` (`tags.dfy`): tags and cases as an arena.
  - A `Heap` maps integer ids to tag and case records.
  - An object reference in the source becomes an id.
  - Each edge operation is a pure function from heap to heap.
- `Registry` (`registry.dfy`): `CaseManage`.
  - A `World` is a heap plus a `Manager`, which holds the level count and
    the buckets.
  - A call that raises in Python returns `Raised(world, error)`. The `world`
    in it is the state at the moment of the raise, because the source
    changes state before some of its checks.
- `Traversal` (`traversal.dfy`): `get_descendants` and `get_ancestors`.
- `Queries` (`queries.dfy`): how the closures behave on registries that
  keep the hierarchy invariants, plus a worked two-level example.
- `Options`, `CommandLine` and `Frame` (`options.dfy`, `commandline.dfy`,
  `frame.dfy`): the options and the two checks on them.

Inputs that the source reads from the process become parameters:
- `TEST_ROOT`;
- the set of existing files;
- the environment map;
- the formatted time stamp;
- the random draw, which is a permutation of the alphabet's positions;
- the remaining interpreter recursion depth.

The registry's invariants are:
- `Symmetric`: every parent edge is mirrored by a child edge.
- `CasesSymmetric`: case and tag links are mirrored.
- `Layered`: every edge joins a tag to a tag exactly one level below it.
- `Bucketed`: a tag in bucket `i` has level `i`.
- `Hierarchy`: `WellFormed`, `Symmetric`, `Bucketed` and `Layered`
  together. `WellFormed` says there is one bucket per level and no id
  dangles. `CasesSymmetric` is not part of it: the case operations state
  separately that they keep it.

Facts about the code that shape the model:

- `set_tag_level` empties the tag's edge sets and sets its level before it
  checks the parent (`dbtests/case.py:89-98`). `reset_tag_level` detaches
  the tag before it checks the parent (`dbtests/case.py:110-120`).
  `SetTagLevel` and `ResetTagLevel` therefore return the partly changed
  world together with the error.
- Both the out-of-range level and the bad parent raise `ValueError`, and so
  does the model.
- `get_descendants` and `get_ancestors` keep no set of visited tags. The
  model recurses in the same way and can run out of depth on a cycle.
- The registry operations do not keep the hierarchy invariants on every
  input, so the two preservation lemmas exclude the inputs that break them:
  - `SetTagLevelKeepsHierarchy` takes a tag with no edges. `set_tag_level`
    clears only the tag's own sets (`dbtests/case.py:89-90`). A tag built
    under one parent (`dbtests/case.py:44-46`) and registered under another
    is still listed as a child by the first. `OtherParentBreaksSymmetry`
    proves that the edges are then no longer mirrored.
  - `ResetTagLevelKeepsHierarchy` takes a parent other than the tag. A tag
    filed one level up passes the parent check at `dbtests/case.py:119`
    when it is its own parent, and line 122 makes it its own parent and
    child. `SelfParentLoops` proves that the hierarchy is then lost and
    `get_descendants` of the tag never returns.

## Model

| member | source | states |
|---|---|---|
| PyValues.PyIndex | dbtests/case.py:130 | Indexing `root_tags` by a level succeeds exactly for indices in `[-n, n)`. The position is the index itself, or `n` plus the index when that is negative, counting from the end. |
| PyValues.PathJoin | dbtests/frame.py:56 | Joining onto an absolute name yields that name. Otherwise the result is the root followed by the name: directly when the root is empty or ends in "/", with one "/" in between when it does not. |
| Tags.NewTag | dbtests/case.py:37-46 | A new tag has the given name and level and no children or cases. Its parent set is `{parent}` or empty. Every existing tag keeps its name, level, parents and cases. The only new child edge is parent→tag, and symmetry and closure are kept. |
| Tags.NewCase | dbtests/case.py:8-11 | A new case has no tags. Every other case is unchanged and the case links stay mirrored. |
| Tags.AddChildTag | dbtests/case.py:54-56 | The edge appears on both sides and no other edge changes. Names, levels and cases are kept, and so are symmetry and closure. |
| Tags.AddParentTag | dbtests/case.py:58-60 | Adds exactly the edge `parent.add_child_tag(self)` adds. |
| Tags.AddChildTagIdempotent | dbtests/case.py:44-46 | Adding an edge that is already present changes nothing, so the constructor's double add is harmless. |
| Tags.DeleteChildTag | dbtests/case.py:62-64 | The edge disappears from both sides and nothing else changes. When the edge is absent the heap is returned unchanged, and no failure occurs. |
| Tags.DeleteParentTag | dbtests/case.py:66-68 | Removes exactly the edge `parent.delete_child_tag(self)` removes. |
| Tags.DeleteUndoesAdd | dbtests/case.py:54-68 | Deleting an edge that was just added to a heap without it restores that heap. |
| Tags.CaseAddTag | dbtests/case.py:33-34 | The case gains the tag and no other case link changes. The tag's own case set is not updated. |
| Tags.AddCase | dbtests/case.py:70-72 | The tag holds the case and the case holds the tag. The graph is untouched and mirrored case links stay mirrored. |
| Registry.NewManager | dbtests/case.py:78-80 | There is one bucket per level (none for a negative count), and every bucket is empty. |
| Registry.NewManagerIsHierarchy | dbtests/case.py:78-80 | A fresh registry over mirrored, layered tags keeps the hierarchy invariants, so the preservation lemmas have a base case. |
| Registry.ClearTag | dbtests/case.py:89-91 | The tag loses its own edge sets and takes the new level. No other tag is told, so the others keep stale entries. |
| Registry.SetTagLevel | dbtests/case.py:82-101 | An out-of-range level raises `ValueError` with nothing changed. Otherwise the call returns exactly when the level is 0 or the parent is in bucket `level-1`, and raises `ValueError` after the clearing otherwise. On return the tag's only parent is that parent and the tag is filed in bucket `level`. |
| Registry.SetTagNewLevel | dbtests/case.py:129-132 | An unset level raises `TypeError` and an out-of-range index raises `IndexError`, both with nothing changed. Otherwise the tag leaves the bucket its old level indexes, joins bucket `level` and takes that level. Edges, cases and other levels are kept. |
| Registry.Detach | dbtests/case.py:110-113 | Every tag listed in the tag's own parent and child sets stops referring to it, and the tag's sets are emptied. Under symmetry no tag refers to it afterwards. |
| Registry.ResetTagLevel | dbtests/case.py:103-132 | An out-of-range level raises with nothing changed, and a level above 0 with a bad parent raises `ValueError`. A raise after the range check leaves the buckets and the tag's level as they were. When the tag is then moved between buckets (at level 0, or under a valid parent), a raise is `TypeError` for an unset level and `IndexError` for a level outside the list. On return: (1) the tag's only edge is to the parent, or it has none at level 0; (2) the tag's level is `level`; (3) after a move the tag is in bucket `level`; (4) an unchanged level above 0 leaves the buckets alone. Cases and other tags' levels are untouched. |
| Registry.ResetTagLevelKeepsOtherBuckets | dbtests/case.py:103-132 | Every tag other than the one being reset stays in exactly the buckets it was in, whether the call returns or raises. |
| Registry.GetCasesInTag | dbtests/case.py:182-183 | The result holds a case exactly when the tag's case set lists it. |
| Registry.GetCaseTags | dbtests/case.py:185-186 | The result holds a tag exactly when the case's tag set lists it. |
| Registry.CaseQueriesAgree | dbtests/case.py:182-186 | When case links are mirrored, `get_case_tags(case)` contains the tag exactly when `get_cases_in_tag(tag)` contains the case. |
| Registry.SetCaseTag | dbtests/case.py:134-136 | The case's tags become the old tags plus the tag, and the tag's cases become the old cases plus the case. Every other case, tag and edge is unchanged, and mirrored case links stay mirrored. |
| Registry.SetTagLevelKeepsHierarchy | dbtests/case.py:82-101 | Registering a fresh tag (no edges, in no bucket) keeps the hierarchy invariants, whether the call returns or raises. Without the edge-free condition it fails (`Queries.OtherParentBreaksSymmetry`). |
| Registry.ResetTagLevelKeepsHierarchy | dbtests/case.py:103-132 | A successful re-level or re-parent under a parent other than the tag itself keeps the hierarchy invariants. With the tag as its own parent it fails (`Queries.SelfParentLoops`). |
| Registry.BucketsMultiset | dbtests/case.py:156-160 | A tag is counted exactly when some bucket holds it. |
| Registry.Extend | dbtests/case.py:159 | `extend` keeps the list built so far as a prefix and adds each tag of the bucket once. |
| Registry.GetAllTags | dbtests/case.py:156-160 | The list holds exactly the tags of the buckets, once per bucket holding each. |
| Registry.BucketedListsOnce | dbtests/case.py:156-160 | When each tag's level names its bucket, no tag is counted twice. |
| Registry.AllTagsOnce | dbtests/case.py:156-160 | Under the hierarchy invariants, `get_all_tags` lists every registered tag exactly once. |
| Traversal.Walk | dbtests/case.py:162-180 | The recursive union: with no depth left it overflows, and a returned set contains every direct child (or parent) of the tag. Its full meaning is stated by `WalkReaches` and `WalkOverflows`. |
| Traversal.GetDescendants | dbtests/case.py:162-170 | A returned set is exactly the tags reachable through child edges. The call overflows exactly when a child chain longer than the allowed depth exists. |
| Traversal.GetAncestors | dbtests/case.py:172-180 | A returned set is exactly the tags reachable through parent edges. The call overflows exactly when a parent chain longer than the allowed depth exists. |
| Traversal.SelfLoopOverflows | dbtests/case.py:162-170 | A tag that is its own child makes `get_descendants` raise `RecursionError` at every depth. |
| Traversal.WalkReaches | dbtests/case.py:162-180 | The recursive union over children (or parents) equals reachability. |
| Traversal.WalkOverflows | dbtests/case.py:162-180 | The recursion runs out of depth exactly when a chain of depth+1 tags starts at the tag. |
| Traversal.WalkTerminatesWhenLayered | dbtests/case.py:162-180 | On a layered hierarchy, a depth of at least `levels` (and at least 1) always suffices. |
| Traversal.WalkExcludesStartWhenLayered | dbtests/case.py:162-180 | On a layered hierarchy, no tag is its own descendant or ancestor. |
| Traversal.DescendantAncestorDuality | dbtests/case.py:162-180 | With mirrored edges, `x` is a descendant of `t` exactly when `t` is an ancestor of `x`. |
| Queries.ClosuresOfHierarchy | dbtests/case.py:162-180 | On a registry keeping the hierarchy invariants, both closures of any tag return and exclude the tag. |
| Queries.TwoLevelRegistration | dbtests/case.py:82-101 | Registering "db" at level 0 and then "ddl" under it at level 1 both return, and the invariants hold. The descendants of "db" are exactly {"ddl"} and the ancestors of "ddl" are exactly {"db"}. |
| Queries.OtherParentBreaksSymmetry | dbtests/case.py:82-101 | Registering a tag under a parent other than one it was built with returns. The former parent still lists the tag as a child, though the tag no longer lists it, so the hierarchy invariants fail. |
| Queries.SelfParentLoops | dbtests/case.py:103-132 | Re-levelling a tag one level down with itself as the parent returns. The tag becomes its own child, the hierarchy invariants fail, and its descendants never return. |
| CommandLine.ResolveCfgFile | dbtests/main.py:268-270 | An absolute path is kept. A relative one becomes `TEST_ROOT + "/" +` the path, so the original path can be read back after that prefix. |
| CommandLine.CheckOpts | dbtests/main.py:239-274 | The check fails on each of the five forbidden combinations. It passes exactly when the combination is allowed and the resolved configuration file, if any, exists. The options come back with `cfg_file` resolved exactly when the combination rules pass. |
| CommandLine.AnsYes | dbtests/main.py:292-293 | True exactly for "yes", "y" and the empty answer. Every accepted answer is a prefix of "yes". |
| Frame.RunTest | dbtests/frame.py:25 | Tests run exactly when one of cases, group dirs and group files is given and non-empty. |
| Frame.SetUpOnly | dbtests/frame.py:26 | The run only sets up exactly when a non-empty setup is given and every test selection is absent or empty; such a run runs no tests. |
| Frame.LogRoot | dbtests/frame.py:37-40 | The log root is the value of the log-directory environment variable when it is set, and otherwise `run` joined onto the test root: `TEST_ROOT + "run"` when the root is empty or ends in "/", `TEST_ROOT + "/run"` when it does not. |
| Frame.BeforeFirstDot | dbtests/frame.py:50 | The result is a dot-free prefix of the file name, cut at its first dot when there is one. |
| Frame.NamePrefix | dbtests/frame.py:41-42 | A non-empty tag is the prefix, whatever else is given. |
| Frame.NamePrefixFollowsPriority | dbtests/frame.py:41-53 | The prefix is what the first applicable rule proposes, or empty when none applies. The order is tag, "destroy", "setup" (set-up only), first case, first group file before its dot, first group dir. |
| Frame.Alphabet | dbtests/frame.py:59 | 62 distinct characters, exactly the ASCII letters and digits. |
| Frame.GenerateRandomStr | dbtests/frame.py:58-59 | `ValueError` exactly for a negative `k` or one above 62. Otherwise the result is `k` distinct alphabet characters. |
| Frame.DrawFor | dbtests/frame.py:58-59 | Every string of distinct alphabet characters is a possible outcome: some draw yields it. |
| Frame.GetRunLogDir | dbtests/frame.py:35-56 | The name is the prefix, then "_", the time stamp, "_" and 8 distinct alphabet characters. The path is the name joined onto the log root, so it lies under the log root unless the name is absolute, in which case it is the name itself. |
| Frame.CheckedSetupRunIsNamedSetup | dbtests/frame.py:25-46 | For options that pass `check_opts`, a set-up run with no tests and no tag is set-up-only and is named "setup": the "destroy" rule cannot shadow it. |

## Left out

- `CaseManage.set_case_level` and `set_case_parent_tag` are not modelled. They are broken:
  - `dbtests/case.py:145` passes a whole bucket where a tag is expected;
  - `dbtests/case.py:149` reads an attribute `parent_tag` that tags do not have.

  Their intended meaning is not evident from the code.
- Registry.Detach: models the evident intent of `dbtests/case.py:110-111`, which is to remove the tag from every neighbour its own sets list. As written, the code cannot do that. `delete_child_tag` discards from the tag's `parent_tags` (`dbtests/case.py:64`), the very set line 110 iterates over; `delete_parent_tag` does the same to `child_tags` (`dbtests/case.py:68`, line 111). CPython therefore raises `RuntimeError` after the first element whenever the tag has any parent, or else any child. So `reset_tag_level` as written fails on every tag with an edge, after removing exactly one edge. The model gives the intended effect instead. `set_tag_level` is modelled as written: it clears only the tag's own sets, with no cleanup on the other side.
- Traversal.GetDescendants and Traversal.GetAncestors take the remaining interpreter recursion depth as a parameter. The exact number of frames CPython allows, and the frames already in use, are not modelled.
- The `Singleton` metaclass of `CaseManage` is not modelled. The registry is an explicit value.
- Object identity is not modelled. Tags and cases are integer ids, and their records must exist. `WellFormed` is the arena's version of "every reference points to a live object".
- Printing and logging are left out. This covers the messages `check_opts` prints, `_init_log`, the logger, and the log queue.
- The `os.environ["TEST_ROOT"]` lookup is not modelled. The model takes the value, so the `KeyError` for a missing variable is not represented.
- The following parts of `dbtests/main.py` are out of scope, since they are I/O around the checks: argparse, the interactive prompts, `.env` handling, directory creation and signal handling.
- `ResultLog.to_json` and `DBJsonEncoder` are not modelled. They involve dates, floating-point times and JSON.
- Remote execution, package installation, file-format readers, and the client and service stubs are out of scope. They are I/O, or they hold no logic.
- Frame.GenerateRandomStr takes the random draw as a permutation of the alphabet's positions. It does not model the exact way `random.sample` picks from its generator, only that a sample is `k` distinct elements in draw order.

=== FILE: commandline.dfy ===
/**
  The pure parts of the command-line entry point: the rules on which options
  may be combined, the rewrite of a relative configuration file path, and the
  classifier for a yes/no answer.

  The value of `TEST_ROOT` and the files that exist are inputs.
 */
module CommandLine {
  import opened PyValues
  import opened Options

  /** 1 when the option is set to a non-empty string. */
  function Flag(o: Option<string>): nat {
    if StrTruthy(o) then 1 else 0
  }

  /** How many of the environment actions `--destroy`, `--use` and `--setup` are given. */
  function EnvironmentActions(o: CmdOption): nat {
    Flag(o.destroy) + Flag(o.use) + Flag(o.setup)
  }

  /** The option combinations the entry point accepts, rule by rule. */
  predicate CombinationAllowed(o: CmdOption) {
    && EnvironmentActions(o) + Flag(o.prepare) >= 1
    && EnvironmentActions(o) <= 1
    && !(ListTruthy(o.cases) && (ListTruthy(o.groupDirs) || ListTruthy(o.groupFiles)))
    && (o.rmContainers ==> o.containers)
    && (o.envInit ==> o.init)
  }

  /** A configuration file path as the check leaves it: an absolute path
      unchanged, any other path resolved under `TEST_ROOT`. */
  function ResolveCfgFile(cfg: string, testRoot: string): (r: string)
    ensures StartsWith(cfg, "/") ==> r == cfg
    ensures !StartsWith(cfg, "/") ==> StartsWith(r, testRoot + "/") && r[|testRoot| + 1..] == cfg
  {
    if !StartsWith(cfg, "/") then testRoot + "/" + cfg else cfg
  }

  /** What `check_opts` returns, and the options as it leaves them. */
  datatype Checked = Checked(ok: bool, opts: CmdOption)

  /**
    `check_opts(opts)`: rejects option combinations rule by rule, then
    resolves a relative `cfg_file` under `TEST_ROOT` (writing it back into
    the options) and rejects a file that does not exist.
   */
  function CheckOpts(o: CmdOption, testRoot: string, existing: set<string>): (r: Checked)
    ensures EnvironmentActions(o) == 0 && !StrTruthy(o.prepare) ==> !r.ok
    ensures EnvironmentActions(o) >= 2 ==> !r.ok
    ensures ListTruthy(o.cases) && (ListTruthy(o.groupDirs) || ListTruthy(o.groupFiles)) ==> !r.ok
    ensures o.rmContainers && !o.containers ==> !r.ok
    ensures o.envInit && !o.init ==> !r.ok
    ensures r.ok <==> CombinationAllowed(o) && (o.cfgFile.Some? ==> ResolveCfgFile(o.cfgFile.value, testRoot) in existing)
    ensures r.opts == if CombinationAllowed(o) && o.cfgFile.Some?
                      then o.(cfgFile := Some(ResolveCfgFile(o.cfgFile.value, testRoot)))
                      else o
  {
    if !StrTruthy(o.destroy) && !StrTruthy(o.use) && !StrTruthy(o.setup) && !StrTruthy(o.prepare) then
      Checked(false, o)
    else if (StrTruthy(o.destroy) && StrTruthy(o.use)) || (StrTruthy(o.use) && StrTruthy(o.setup))
         || (StrTruthy(o.destroy) && StrTruthy(o.setup)) then
      Checked(false, o)
    else if (ListTruthy(o.groupDirs) || ListTruthy(o.groupFiles)) && ListTruthy(o.cases) then
      Checked(false, o)
    else if o.rmContainers && !o.containers then
      Checked(false, o)
    else if o.envInit && !o.init then
      Checked(false, o)
    else if o.cfgFile.Some? then
      var cfg := if !StartsWith(o.cfgFile.value, "/") then testRoot + "/" + o.cfgFile.value else o.cfgFile.value;
      var resolved := o.(cfgFile := Some(cfg));
      if cfg !in existing then Checked(false, resolved) else Checked(true, resolved)
    else
      Checked(true, o)
  }

  /** `ans_yes(ans)`: "yes", "y" and the empty answer count as yes; the
      comparison is case-sensitive, so every accepted answer is a prefix of
      "yes". */
  function AnsYes(ans: string): (r: bool)
    ensures r <==> ans == "yes" || ans == "y" || ans == ""
    ensures r ==> StartsWith("yes", ans)
  {
    ans in ["yes", "y", ""]
  }
}

=== FILE: frame.dfy ===
/**
  The decisions the test frame takes from its options before it touches the
  file system: whether tests are to be run, whether the run only sets an
  environment up, and the name and place of the run's log directory.

  The clock, the random draw and the process environment are inputs: the
  formatted time stamp, a permutation of the alphabet's positions, and a map
  of environment variables.
 */
module Frame {
  import opened PyValues
  import opened Options
  import opened CommandLine

  /** The test selections the frame looks at: cases, group dirs, group files. */
  function Selections(o: CmdOption): seq<Option<seq<string>>> {
    [o.cases, o.groupDirs, o.groupFiles]
  }

  /** `_run_test`: test cases or test groups were given. */
  function RunTest(o: CmdOption): (r: bool)
    ensures r <==> exists k | 0 <= k < |Selections(o)| :: Selections(o)[k].Some? && Selections(o)[k].value != []
  {
    var run := ListTruthy(o.cases) || ListTruthy(o.groupDirs) || ListTruthy(o.groupFiles);
    assert run ==> ListTruthy(Selections(o)[0]) || ListTruthy(Selections(o)[1]) || ListTruthy(Selections(o)[2]);
    run
  }

  /** `_set_up_only`: an environment is set up and no test runs. */
  function SetUpOnly(o: CmdOption): (r: bool)
    ensures r ==> StrTruthy(o.setup) && !RunTest(o)
    ensures r <==> StrTruthy(o.setup) && forall k | 0 <= k < |Selections(o)| :: Selections(o)[k].None? || Selections(o)[k].value == []
  {
    StrTruthy(o.setup) && !RunTest(o)
  }

  /** `s.split(".")[0]`: the text before the first dot, or all of `s`. */
  function BeforeFirstDot(s: string): (r: string)
    ensures StartsWith(s, r) && '.' !in r
    ensures |r| < |s| ==> s[|r|] == '.'
  {
    if s == [] || s[0] == '.' then [] else [s[0]] + BeforeFirstDot(s[1..])
  }

  /**
    The rules `_get_run_log_dir` tries, in priority order: each is the prefix
    it proposes, or `None` when it does not apply.
   */
  function Candidates(o: CmdOption): seq<Option<string>> {
    [ if StrTruthy(o.tag) then Some(o.tag.value) else None,
      if StrTruthy(o.destroy) then Some("destroy") else None,
      if SetUpOnly(o) then Some("setup") else None,
      if ListTruthy(o.cases) then Some(o.cases.value[0]) else None,
      if ListTruthy(o.groupFiles) then Some(BeforeFirstDot(o.groupFiles.value[0])) else None,
      if ListTruthy(o.groupDirs) then Some(o.groupDirs.value[0]) else None ]
  }

  /** The prefix of the log directory's name, rule by rule. */
  function NamePrefix(o: CmdOption): (r: string)
    ensures StrTruthy(o.tag) ==> r == o.tag.value
  {
    if StrTruthy(o.tag) then o.tag.value
    else if StrTruthy(o.destroy) then "destroy"
    else if SetUpOnly(o) then "setup"
    else if ListTruthy(o.cases) then o.cases.value[0]
    else if ListTruthy(o.groupFiles) then BeforeFirstDot(o.groupFiles.value[0])
    else if ListTruthy(o.groupDirs) then o.groupDirs.value[0]
    else ""
  }

  /** Rule `k` applies and no rule before it does. */
  predicate FirstApplicable(rules: seq<Option<string>>, k: int) {
    0 <= k < |rules| && rules[k].Some? && forall j | 0 <= j < k :: rules[j].None?
  }

  /**
    The name prefix is what the first applicable rule proposes, and empty when
    no rule applies: a later rule never overrides an earlier one.
   */
  lemma NamePrefixFollowsPriority(o: CmdOption)
    ensures forall k | FirstApplicable(Candidates(o), k) :: NamePrefix(o) == Candidates(o)[k].value
    ensures (forall k | 0 <= k < |Candidates(o)| :: Candidates(o)[k].None?) ==> NamePrefix(o) == ""
  {
    var c := Candidates(o);
    forall k | FirstApplicable(c, k) ensures NamePrefix(o) == c[k].value {
      if k > 0 { assert c[0].None?; }
      if k > 1 { assert c[1].None?; }
      if k > 2 { assert c[2].None?; }
      if k > 3 { assert c[3].None?; }
      if k > 4 { assert c[4].None?; }
    }
    if forall k | 0 <= k < |c| :: c[k].None? {
      assert c[0].None? && c[1].None? && c[2].None? && c[3].None? && c[4].None? && c[5].None?;
    }
  }

  /** The code point of the alphabet's `i`-th character: the 26 lower-case
      letters, the 26 upper-case letters, then the 10 digits. */
  function AlphabetCode(i: int): int {
    if i < 26 then 'a' as int + i
    else if i < 52 then 'A' as int + (i - 26)
    else '0' as int + (i - 52)
  }

  /** `string.ascii_letters + string.digits`. */
  function Alphabet(): (r: string)
    ensures |r| == 62
    ensures forall i, j | 0 <= i < j < |r| :: r[i] != r[j]
    ensures forall c :: c in r <==> 'a' <= c <= 'z' || 'A' <= c <= 'Z' || '0' <= c <= '9'
  {
    var r := seq(62, i requires 0 <= i < 62 => AlphabetCode(i) as char);
    assert forall i | 0 <= i < 62 :: r[i] as int == AlphabetCode(i);
    forall i, j | 0 <= i < j < 62 ensures r[i] != r[j] {
      assert AlphabetCode(i) != AlphabetCode(j);
    }
    forall c ensures c in r <==> 'a' <= c <= 'z' || 'A' <= c <= 'Z' || '0' <= c <= '9' {
      if 'a' <= c <= 'z' {
        assert r[c as int - 'a' as int] == c;
      } else if 'A' <= c <= 'Z' {
        assert r[26 + (c as int - 'A' as int)] == c;
      } else if '0' <= c <= '9' {
        assert r[52 + (c as int - '0' as int)] == c;
      }
    }
    r
  }

  /** A permutation of the positions `0 .. n - 1`: the order a uniform draw
      without replacement visits them in. */
  predicate IsPermutation(draw: seq<nat>, n: nat) {
    && |draw| == n
    && (forall i | 0 <= i < |draw| :: draw[i] < n)
    && (forall i, j | 0 <= i < j < |draw| :: draw[i] != draw[j])
  }

  /**
    `_generate_random_str(k)`: `k` distinct characters of the alphabet, the
    first `k` of the draw. `random.sample` raises `ValueError` (here `None`)
    for a negative `k` or one larger than the alphabet.
   */
  function GenerateRandomStr(k: int, draw: seq<nat>): (r: Option<string>)
    requires IsPermutation(draw, |Alphabet()|)
    ensures r.None? <==> k < 0 || k > |Alphabet()|
    ensures r.Some? ==> |r.value| == k
    ensures r.Some? ==> forall i | 0 <= i < k :: r.value[i] in Alphabet()
    ensures r.Some? ==> forall i, j | 0 <= i < j < k :: r.value[i] != r.value[j]
  {
    var alphabet := Alphabet();
    if k < 0 || k > |alphabet| then None
    else Some(seq(k, i requires 0 <= i < k => alphabet[draw[i]]))
  }

  /** Position `v` occurs somewhere in the draw. */
  predicate Drawn(draw: seq<nat>, v: nat) {
    exists q | 0 <= q < |draw| :: draw[q] == v
  }

  /** The draw with entries `i` and `p` exchanged. */
  function Swap(draw: seq<nat>, i: nat, p: nat): seq<nat>
    requires i < |draw| && p < |draw|
  {
    draw[i := draw[p]][p := draw[i]]
  }

  /** Exchanging two entries of a draw leaves a draw of the same positions. */
  lemma SwapKeepsPermutation(draw: seq<nat>, i: nat, p: nat)
    requires IsPermutation(draw, |draw|) && i < |draw| && p < |draw|
    requires forall v | 0 <= v < |draw| :: Drawn(draw, v)
    ensures IsPermutation(Swap(draw, i, p), |draw|)
    ensures forall v | 0 <= v < |draw| :: Drawn(Swap(draw, i, p), v)
  {
    var next := Swap(draw, i, p);
    forall u | 0 <= u < |draw| ensures Drawn(next, u) {
      assert Drawn(draw, u);
      var q :| 0 <= q < |draw| && draw[q] == u;
      if q == i { assert next[p] == u; }
      else if q == p { assert next[i] == u; }
      else { assert next[q] == u; }
    }
  }

  /**
    Every string of distinct alphabet characters is a possible outcome of
    `_generate_random_str`: the method builds a draw that yields it, by
    swapping each wanted position to the front of the identity permutation.
   */
  method DrawFor(s: string) returns (draw: seq<nat>)
    requires forall i | 0 <= i < |s| :: s[i] in Alphabet()
    requires forall i, j | 0 <= i < j < |s| :: s[i] != s[j]
    ensures IsPermutation(draw, |Alphabet()|)
    ensures GenerateRandomStr(|s|, draw) == Some(s)
  {
    var alphabet := Alphabet();
    draw := seq(62, v requires 0 <= v < 62 => v as nat);
    forall v | 0 <= v < 62 ensures Drawn(draw, v) {
      assert draw[v] == v;
    }
    var i := 0;
    while i < |s|
      invariant 0 <= i <= |s| && i <= 62
      invariant IsPermutation(draw, 62)
      invariant forall v | 0 <= v < 62 :: Drawn(draw, v)
      invariant forall j | 0 <= j < i :: alphabet[draw[j]] == s[j]
    {
      var v :| 0 <= v < 62 && alphabet[v] == s[i];
      assert Drawn(draw, v);
      var p :| 0 <= p < |draw| && draw[p] == v;
      forall j | 0 <= j < i ensures draw[j] != v {
        assert s[j] != s[i];
      }
      var next := Swap(draw, i, p);
      SwapKeepsPermutation(draw, i, p);
      draw, i := next, i + 1;
    }
    assert seq(|s|, k requires 0 <= k < |s| => alphabet[draw[k]]) == s;
  }

  /** Where the run's log directories go: the directory the service's
      environment variable names, else `run` under the test root. */
  function LogRoot(testRoot: string, env: map<string, string>, logDirVariable: string): (r: string)
    ensures logDirVariable in env ==> r == env[logDirVariable]
    ensures logDirVariable !in env ==>
      r == (if testRoot == "" || testRoot[|testRoot| - 1] == '/' then testRoot + "run" else testRoot + "/run")
  {
    if logDirVariable in env then env[logDirVariable]
    else
      assert !StartsWith("run", "/") by { assert "run"[0] != '/'; }
      assert testRoot + "/" + "run" == testRoot + "/run";
      PathJoin(testRoot, "run")
  }

  /** The log directory's name: the prefix, then the time stamp and the
      random characters, each after an underscore. */
  function RunLogDirName(prefix: string, clock: string, random: string): (name: string)
    requires |random| == 8
    ensures |name| == |prefix| + |clock| + 10
    ensures StartsWith(name, prefix)
    ensures name[|prefix|..|name| - 8] == "_" + clock + "_"
    ensures name[|name| - 8..] == random
  {
    var stamp := "_" + clock + "_";
    var name := prefix + stamp + random;
    assert name[|prefix|..|name| - 8] == stamp;
    assert name[|name| - 8..] == random;
    name
  }

  /**
    `_get_run_log_dir()`: the log directory's path and name. The name is the
    prefix, the time stamp `clock` (`%Y%m%d_%H%M%S`) and eight random
    characters, joined by underscores; the path is the name joined onto the
    log root.
   */
  function GetRunLogDir(o: CmdOption, testRoot: string, env: map<string, string>, logDirVariable: string,
                        clock: string, draw: seq<nat>): (r: (string, string))
    requires IsPermutation(draw, |Alphabet()|)
    ensures |r.1| == |NamePrefix(o)| + |clock| + 10
    ensures StartsWith(r.1, NamePrefix(o))
    ensures r.1[|NamePrefix(o)|..|r.1| - 8] == "_" + clock + "_"
    ensures forall i | |r.1| - 8 <= i < |r.1| :: r.1[i] in Alphabet()
    ensures forall i, j | |r.1| - 8 <= i < j < |r.1| :: r.1[i] != r.1[j]
    ensures r.0 == PathJoin(LogRoot(testRoot, env, logDirVariable), r.1)
    ensures !StartsWith(r.1, "/") ==> StartsWith(r.0, LogRoot(testRoot, env, logDirVariable))
    ensures StartsWith(r.1, "/") ==> r.0 == r.1
  {
    var random := GenerateRandomStr(8, draw).value;
    var name := RunLogDirName(NamePrefix(o), clock, random);
    assert forall i | |name| - 8 <= i < |name| :: name[i] == random[i - (|name| - 8)];
    (PathJoin(LogRoot(testRoot, env, logDirVariable), name), name)
  }


  /**
    Options that pass the check never name more than one environment action,
    so a set-up run without tests and without a tag is named "setup": the
    earlier "destroy" rule cannot shadow it.
   */
  lemma CheckedSetupRunIsNamedSetup(o: CmdOption, testRoot: string, existing: set<string>)
    requires CheckOpts(o, testRoot, existing).ok
    requires StrTruthy(o.setup) && !RunTest(o) && !StrTruthy(o.tag)
    ensures SetUpOnly(o) && NamePrefix(o) == "setup"
  {
    assert EnvironmentActions(o) <= 1;
  }
}

=== FILE: options.dfy ===
/**
  `CmdOption`: the command-line options, as far as the option check and the
  run-log naming read them. `parse_command_line` turns an empty argument into
  `None`, but these fields may hold any value a caller sets.
 */
module Options {
  import opened PyValues

  datatype CmdOption = CmdOption(
    setup: Option<string>,
    destroy: Option<string>,
    use: Option<string>,
    prepare: Option<string>,
    tag: Option<string>,
    cfgFile: Option<string>,
    cases: Option<seq<string>>,
    groupFiles: Option<seq<string>>,
    groupDirs: Option<seq<string>>,
    containers: bool,
    rmContainers: bool,
    init: bool,
    envInit: bool)
}

=== FILE: pyvalues.dfy ===
/**
  The few Python value conventions the modelled code relies on: `None`,
  truthiness of optional strings and lists, `str.startswith`, list indexing
  with negative indices, and `os.path.join` on a POSIX system.
 */
module PyValues {

  /** `None` or a value. */
  datatype Option<+T> = None | Some(value: T)

  /** Truthiness of an optional string: neither `None` nor the empty string. */
  predicate StrTruthy(o: Option<string>) {
    o.Some? && o.value != ""
  }

  /** Truthiness of an optional list: neither `None` nor the empty list. */
  predicate ListTruthy<T>(o: Option<seq<T>>) {
    o.Some? && |o.value| > 0
  }

  /** `s.startswith(prefix)`. */
  predicate StartsWith(s: string, prefix: string) {
    prefix <= s
  }

  /**
    The position `xs[i]` denotes in a list of length `n`: Python counts a
    negative index from the end, and anything outside `[-n, n)` raises
    `IndexError` (here `None`).
   */
  function PyIndex(n: nat, i: int): (r: Option<nat>)
    ensures r.Some? <==> -(n as int) <= i < n
    ensures r.Some? ==> r.value < n && (r.value == i || r.value == n + i)
  {
    if 0 <= i < n then Some(i)
    else if -(n as int) <= i < 0 then Some(n + i)
    else None
  }

  /** `os.path.join(a, b)` with the POSIX separator. */
  function PathJoin(a: string, b: string): (r: string)
    ensures StartsWith(b, "/") ==> r == b
    ensures !StartsWith(b, "/") ==> StartsWith(r, a) && (r == a + b || r == a + "/" + b)
    ensures !StartsWith(b, "/") && (a == "" || a[|a| - 1] == '/') ==> r == a + b
    ensures !StartsWith(b, "/") && a != "" && a[|a| - 1] != '/' ==> r == a + "/" + b
    ensures |b| <= |r| && r[|r| - |b|..] == b
  {
    if StartsWith(b, "/") then b
    else if a == "" || a[|a| - 1] == '/' then a + b
    else a + "/" + b
  }
}

=== FILE: queries.dfy ===
/**
  The closure queries of the registry on the states its operations keep:
  with the hierarchy invariants, `get_descendants` and `get_ancestors`
  return (given at least one nested call per level) and never list the tag
  they start from.
 */
module Queries {
  import opened PyValues
  import opened Tags
  import opened Registry
  import opened Traversal

  /** Descendants and ancestors of a tag of a well-kept registry. */
  lemma ClosuresOfHierarchy(w: World, t: TagId, depth: nat)
    requires Hierarchy(w) && depth >= w.mgr.levels && depth >= 1
    ensures GetDescendants(w.heap, t, depth).Reached? && t !in GetDescendants(w.heap, t, depth).tags
    ensures GetAncestors(w.heap, t, depth).Reached? && t !in GetAncestors(w.heap, t, depth).tags
  {
    var h, levels := w.heap, w.mgr.levels;
    WalkTerminatesWhenLayered(h, Down, t, levels, depth);
    WalkExcludesStartWhenLayered(h, Down, t, levels, depth);
    WalkTerminatesWhenLayered(h, Up, t, levels, depth);
    WalkExcludesStartWhenLayered(h, Up, t, levels, depth);
  }

  /** Two unregistered tags, "db" (id 0) and "ddl" (id 1), and a registry of two levels. */
  function ExampleWorld(): World {
    World(Heap(map[0 := Tag("db", None, {}, {}, {}), 1 := Tag("ddl", None, {}, {}, {})], map[]), NewManager(2))
  }

  lemma ExampleWorldIsHierarchy()
    ensures Hierarchy(ExampleWorld())
  {
    var h := ExampleWorld().heap;
    assert forall a, b :: !HasChild(h, a, b) && !HasParent(h, a, b);
  }

  /** The first step: "db" registered at level 0. */
  lemma RegisterDb()
    ensures var s := SetTagLevel(ExampleWorld(), 0, 0, None);
            && s.Returned? && Hierarchy(s.world)
            && InBucket(s.world.mgr, 0, 0) && !InBucket(s.world.mgr, 0, 1) && !InBucket(s.world.mgr, 1, 1)
            && s.world.heap.tags.Keys == {0, 1}
            && s.world.heap.tags[0].parents == {} && s.world.heap.tags[0].children == {}
            && s.world.heap.tags[1].parents == {} && s.world.heap.tags[1].children == {}
  {
    ExampleWorldIsHierarchy();
    SetTagLevelKeepsHierarchy(ExampleWorld(), 0, 0, None);
  }

  /** A heap of two tags in which 1 is the only child of 0 and nothing else is linked. */
  ghost predicate OneEdge(h: Heap) {
    && h.tags.Keys == {0, 1}
    && h.tags[0].children == {1} && h.tags[1].children == {}
    && h.tags[0].parents == {} && h.tags[1].parents == {0}
  }

  /** In such a heap, 1 is all 0 reaches going down and 0 is all 1 reaches going up. */
  lemma OneEdgeReaches(h: Heap)
    requires OneEdge(h) && Layered(h, 2)
    ensures forall x :: Reaches(h, Down, 0, x) <==> x == 1
    ensures forall x :: Reaches(h, Up, 1, x) <==> x == 0
  {
    forall x ensures Reaches(h, Down, 0, x) <==> x == 1 {
      if Reaches(h, Down, 0, x) {
        var p :| |p| >= 2 && p[0] == 0 && p[|p| - 1] == x && Chain(h, Down, p);
        ChainLevels(h, Down, p, 2);
        assert p[1] in Next(h, Down, 0);
      }
      if x == 1 {
        assert Chain(h, Down, [0, 1]);
      }
    }
    forall x ensures Reaches(h, Up, 1, x) <==> x == 0 {
      if Reaches(h, Up, 1, x) {
        var p :| |p| >= 2 && p[0] == 1 && p[|p| - 1] == x && Chain(h, Up, p);
        ChainLevels(h, Up, p, 2);
        assert p[1] in Next(h, Up, 1);
      }
      if x == 0 {
        assert Chain(h, Up, [1, 0]);
      }
    }
  }

  /** The closures of a two-level registry holding one edge. */
  lemma OneEdgeClosures(w: World)
    requires Hierarchy(w) && OneEdge(w.heap) && w.mgr.levels == 2
    ensures GetDescendants(w.heap, 0, 2) == Reached({1})
    ensures GetAncestors(w.heap, 1, 2) == Reached({0})
  {
    OneEdgeReaches(w.heap);
    ClosuresOfHierarchy(w, 0, 2);
    ClosuresOfHierarchy(w, 1, 2);
  }

  /** The second step: "ddl" registered at level 1 under "db". */
  lemma RegisterDdl(w1: World)
    requires w1 == SetTagLevel(ExampleWorld(), 0, 0, None).world
    ensures var s := SetTagLevel(w1, 1, 1, Some(0));
            s.Returned? && Hierarchy(s.world) && OneEdge(s.world.heap) && s.world.mgr.levels == 2
  {
    RegisterDb();
    SetTagLevelKeepsHierarchy(w1, 1, 1, Some(0));
  }

  /**
    Registering "db" at level 0 and then "ddl" at level 1 under "db" both
    return; the result keeps the hierarchy invariants, "ddl" is the only
    descendant of "db" and "db" the only ancestor of "ddl".
   */
  lemma TwoLevelRegistration()
    ensures SetTagLevel(ExampleWorld(), 0, 0, None).Returned?
    ensures var w1 := SetTagLevel(ExampleWorld(), 0, 0, None).world;
            var s2 := SetTagLevel(w1, 1, 1, Some(0));
            && s2.Returned?
            && Hierarchy(s2.world)
            && GetDescendants(s2.world.heap, 0, 2) == Reached({1})
            && GetAncestors(s2.world.heap, 1, 2) == Reached({0})
  {
    RegisterDb();
    var w1 := SetTagLevel(ExampleWorld(), 0, 0, None).world;
    RegisterDdl(w1);
    var w2 := SetTagLevel(w1, 1, 1, Some(0)).world;
    OneEdgeClosures(w2);
  }

  /**
    `set_tag_level` under a parent other than one the tag was constructed
    with: the tag's own sets are cleared, but the former parent still lists it
    as a child, so the edges are no longer mirrored.
   */
  lemma OtherParentBreaksSymmetry(w: World, tag: TagId, level: int, former: TagId, parent: TagId)
    requires Hierarchy(w) && tag in w.heap.tags && parent in w.heap.tags
    requires HasParent(w.heap, tag, former) && former != parent
    requires 0 < level < w.mgr.levels && InBucket(w.mgr, level - 1, parent)
    ensures var s := SetTagLevel(w, tag, level, Some(parent));
            && s.Returned?
            && HasChild(s.world.heap, former, tag) && !HasParent(s.world.heap, tag, former)
            && !Hierarchy(s.world)
  {
    var h := w.heap;
    assert OneLevelBelow(h, former, tag, w.mgr.levels);
    assert HasChild(h, former, tag);
  }

  /**
    `reset_tag_level` with the tag as its own parent: the tag sits in the
    bucket one level up, so the check passes and the tag becomes its own
    parent and child. The hierarchy is lost and `get_descendants` of the tag
    never returns.
   */
  lemma SelfParentLoops(w: World, tag: TagId, level: int)
    requires Hierarchy(w) && tag in w.heap.tags
    requires 0 < level < w.mgr.levels && InBucket(w.mgr, level - 1, tag)
    ensures var s := ResetTagLevel(w, tag, level, Some(tag));
            && s.Returned? && HasChild(s.world.heap, tag, tag)
            && !Hierarchy(s.world)
            && forall depth: nat :: GetDescendants(s.world.heap, tag, depth).RecursionError?
  {
    var s := ResetTagLevel(w, tag, level, Some(tag));
    assert BucketOf(w.mgr, w.heap.tags[tag].level) == Some(level - 1);
    assert HasChild(s.world.heap, tag, tag);
    assert !OneLevelBelow(s.world.heap, tag, tag, s.world.mgr.levels);
    forall depth: nat ensures GetDescendants(s.world.heap, tag, depth).RecursionError? {
      SelfLoopOverflows(s.world.heap, tag, depth);
    }
  }
}

=== FILE: registry.dfy ===
/**
  `CaseManage`: the registry that files tags into one bucket per level and
  links cases to tags.

  Python raises exceptions after some of its mutations have happened, so
  every registry operation returns the state after the call together with
  whether it returned or raised.
 */
module Registry {
  import opened PyValues
  import opened Tags

  /** The exceptions the registry operations raise. */
  datatype PyError = ValueError | TypeError | IndexError

  /** The number of levels and the bucket of tags registered at each level. */
  datatype Manager = Manager(levels: int, rootTags: seq<set<TagId>>)

  /** The objects in existence and the registry. */
  datatype World = World(heap: Heap, mgr: Manager)

  /** The state a call leaves behind, and how the call ended. */
  datatype Step = Returned(world: World) | Raised(world: World, error: PyError)

  /** `[set() for _ in range(levels)]` has this many buckets. */
  function BucketCount(levels: int): nat {
    if levels < 0 then 0 else levels
  }

  /** `CaseManage(levels)`: one empty bucket per level. */
  function NewManager(levels: int): (m: Manager)
    ensures m.levels == levels && |m.rootTags| == BucketCount(levels)
    ensures forall i, t :: !InBucket(m, i, t)
  {
    Manager(levels, seq(BucketCount(levels), _ => {}))
  }

  /** A fresh registry over mirrored, layered tags keeps the hierarchy
      invariants: its buckets are empty, so nothing is misfiled. */
  lemma NewManagerIsHierarchy(h: Heap, levels: int)
    requires Closed(h) && Symmetric(h) && Layered(h, levels)
    ensures Hierarchy(World(h, NewManager(levels)))
  {
  }

  /** `t` is in `root_tags[i]`. */
  predicate InBucket(m: Manager, i: int, t: TagId) {
    0 <= i < |m.rootTags| && t in m.rootTags[i]
  }

  /** The registry has one bucket per level and refers only to existing tags. */
  ghost predicate WellFormed(w: World) {
    && Closed(w.heap)
    && |w.mgr.rootTags| == BucketCount(w.mgr.levels)
    && forall i, t :: InBucket(w.mgr, i, t) ==> t in w.heap.tags
  }

  /** A tag in bucket `i` has level `i`; so no tag sits in two buckets. */
  ghost predicate Bucketed(w: World) {
    forall i, t :: InBucket(w.mgr, i, t) ==> t in w.heap.tags && w.heap.tags[t].level == Some(i)
  }

  /** The invariants the registry is meant to keep. */
  ghost predicate Hierarchy(w: World) {
    && WellFormed(w)
    && Symmetric(w.heap)
    && Bucketed(w)
    && Layered(w.heap, w.mgr.levels)
  }

  /** Both heaps hold the same objects with the same names and cases. */
  ghost predicate SameCases(h: Heap, h': Heap) {
    && h'.tags.Keys == h.tags.Keys
    && h'.cases == h.cases
    && forall x | x in h.tags :: h'.tags[x].name == h.tags[x].name && h'.tags[x].cases == h.tags[x].cases
  }

  /** Every tag other than `tag` keeps its level. */
  ghost predicate OtherLevelsKept(h: Heap, h': Heap, tag: TagId)
    requires h'.tags.Keys == h.tags.Keys
  {
    forall x | x in h.tags && x != tag :: h'.tags[x].level == h.tags[x].level
  }

  /** `root_tags[i].add(t)`. */
  function AddToBucket(m: Manager, i: nat, t: TagId): (r: Manager)
    requires i < |m.rootTags|
    ensures r.levels == m.levels && |r.rootTags| == |m.rootTags|
    ensures forall j, x :: InBucket(r, j, x) <==> InBucket(m, j, x) || (j == i && x == t)
  {
    m.(rootTags := m.rootTags[i := m.rootTags[i] + {t}])
  }

  /** The bucket `root_tags[level]` denotes, if any. */
  function BucketOf(m: Manager, level: Option<int>): Option<nat> {
    if level.None? then None else PyIndex(|m.rootTags|, level.value)
  }

  /** Both heaps hold the same tags with the same parent and child sets. */
  ghost predicate SameEdges(h: Heap, h': Heap) {
    && h'.tags.Keys == h.tags.Keys
    && forall x | x in h.tags :: h'.tags[x].parents == h.tags[x].parents && h'.tags[x].children == h.tags[x].children
  }

  /**
    `tag`'s own edge sets were replaced by the single parent `link` (none
    when `link` is `None`) and its level by `level`, while every other tag
    kept its sets, except that `link` also lists `tag` as a child.
   */
  ghost predicate Relinked(h: Heap, h': Heap, tag: TagId, level: int, link: Option<TagId>) {
    && tag in h.tags
    && SameCases(h, h')
    && OtherLevelsKept(h, h', tag)
    && h'.tags[tag].level == Some(level)
    && h'.tags[tag].parents == (if link.Some? then {link.value} else {})
    && h'.tags[tag].children == (if link == Some(tag) then {tag} else {})
    && forall x | x in h.tags && x != tag ::
         && h'.tags[x].parents == h.tags[x].parents
         && h'.tags[x].children == h.tags[x].children + (if link == Some(x) then {tag} else {})
  }

  /**
    `tag` lost every edge its own sets listed, on both sides, and gained
    `link` as its only parent; edges between other tags are untouched.
   */
  ghost predicate Rewired(h: Heap, h': Heap, tag: TagId, link: Option<TagId>) {
    && tag in h'.tags
    && h'.tags[tag].parents == (if link.Some? then {link.value} else {})
    && h'.tags[tag].children == (if link == Some(tag) then {tag} else {})
    && (forall x | x != tag ::
          && (HasChild(h', x, tag) <==> (HasChild(h, x, tag) && !HasParent(h, tag, x)) || link == Some(x))
          && (HasParent(h', x, tag) <==> HasParent(h, x, tag) && !HasChild(h, tag, x)))
    && (forall x, y | x != tag && y != tag ::
          && (HasChild(h', x, y) <==> HasChild(h, x, y))
          && (HasParent(h', x, y) <==> HasParent(h, x, y)))
  }

  /** Bucket `level` of `m'` holds `tag` in addition to what `m` held when
      `filed`; every other bucket and tag is as in `m`. */
  ghost predicate Filed(m: Manager, m': Manager, tag: TagId, level: int, filed: bool) {
    && m'.levels == m.levels
    && |m'.rootTags| == |m.rootTags|
    && forall i, x :: InBucket(m', i, x) <==> InBucket(m, i, x) || (filed && i == level && x == tag)
  }

  /** Lines 89-91 of `set_tag_level`: empty the tag's own edge sets and set
      its level, telling no other tag. */
  function ClearTag(h: Heap, tag: TagId, level: int): (r: Heap)
    requires tag in h.tags
    ensures Relinked(h, r, tag, level, None)
    ensures Closed(h) ==> Closed(r)
  {
    var t := h.tags[tag];
    h.(tags := h.tags[tag := t.(parents := {}, children := {}, level := Some(level))])
  }

  /** Adding `link` as a parent of a freshly cleared tag. */
  lemma RelinkedByParent(h: Heap, h1: Heap, tag: TagId, level: int, p: TagId)
    requires Relinked(h, h1, tag, level, None) && p in h1.tags
    ensures Relinked(h, AddParentTag(h1, tag, p), tag, level, Some(p))
  {
    var h2 := AddParentTag(h1, tag, p);
    forall x | x in h.tags && x != tag
      ensures h2.tags[x].children == h.tags[x].children + (if Some(p) == Some(x) then {tag} else {})
    {
      assert forall y :: y in h2.tags[x].children <==> HasChild(h2, x, y);
    }
    assert h2.tags[tag].children == (if Some(p) == Some(tag) then {tag} else {}) by {
      assert forall y :: y in h2.tags[tag].children <==> HasChild(h2, tag, y);
    }
    assert h2.tags[tag].parents == {p} by {
      assert forall y :: y in h2.tags[tag].parents <==> HasParent(h2, tag, y);
    }
    forall x | x in h.tags && x != tag
      ensures h2.tags[x].parents == h.tags[x].parents
    {
      assert forall y :: y in h2.tags[x].parents <==> HasParent(h2, x, y);
    }
  }

  /**
    `set_tag_level(tag, level, parent_tag)`. Out of range it raises at once.
    Otherwise it empties the tag's own edge sets and sets its level (other
    tags still listing it keep their entries), then files a level-0 tag, or
    raises when the parent is missing or not registered one level up, or
    links the parent and files the tag.
   */
  function SetTagLevel(w: World, tag: TagId, level: int, parent: Option<TagId>): (s: Step)
    requires WellFormed(w) && tag in w.heap.tags
    requires parent.Some? ==> parent.value in w.heap.tags
    ensures !(0 <= level < w.mgr.levels) ==> s == Raised(w, ValueError)
    ensures 0 <= level < w.mgr.levels ==>
      && (s.Returned? <==> level == 0 || (parent.Some? && InBucket(w.mgr, level - 1, parent.value)))
      && (s.Raised? ==> s.error == ValueError)
      && Relinked(w.heap, s.world.heap, tag, level, if s.Returned? && level > 0 then parent else None)
      && Filed(w.mgr, s.world.mgr, tag, level, s.Returned?)
    ensures WellFormed(s.world)
  {
    if level > w.mgr.levels - 1 || level < 0 then
      Raised(w, ValueError)
    else
      var h1 := ClearTag(w.heap, tag, level);
      if level == 0 then
        Returned(World(h1, AddToBucket(w.mgr, 0, tag)))
      else if parent.None? || parent.value !in w.mgr.rootTags[level - 1] then
        Raised(World(h1, w.mgr), ValueError)
      else
        RelinkedByParent(w.heap, h1, tag, level, parent.value);
        Returned(World(AddParentTag(h1, tag, parent.value), AddToBucket(w.mgr, level, tag)))
  }

  /**
    `_set_tag_new_level(tag, level)`: takes the tag out of the bucket its
    current level indexes (Python indexing, so a negative level counts from
    the end) and files it under `level`. An unset level raises `TypeError`
    and one outside the list raises `IndexError`, both before any change.
   */
  function SetTagNewLevel(w: World, tag: TagId, level: int): (s: Step)
    requires WellFormed(w) && tag in w.heap.tags && 0 <= level < w.mgr.levels
    ensures var prior := w.heap.tags[tag].level;
      && (prior.None? ==> s == Raised(w, TypeError))
      && (prior.Some? && BucketOf(w.mgr, prior).None? ==> s == Raised(w, IndexError))
      && (s.Returned? <==> BucketOf(w.mgr, prior).Some?)
    ensures s.Returned? ==>
      && SameCases(w.heap, s.world.heap)
      && SameEdges(w.heap, s.world.heap)
      && OtherLevelsKept(w.heap, s.world.heap, tag)
      && s.world.heap.tags[tag].level == Some(level)
      && s.world.mgr.levels == w.mgr.levels
      && forall i, x :: InBucket(s.world.mgr, i, x) <==>
           if x == tag then i == level || (InBucket(w.mgr, i, x) && Some(i) != BucketOf(w.mgr, w.heap.tags[tag].level))
           else InBucket(w.mgr, i, x)
    ensures WellFormed(s.world)
  {
    var t := w.heap.tags[tag];
    match BucketOf(w.mgr, t.level)
    case None =>
      if t.level.None? then Raised(w, TypeError) else Raised(w, IndexError)
    case Some(i) =>
      var m1 := w.mgr.(rootTags := w.mgr.rootTags[i := w.mgr.rootTags[i] - {tag}]);
      var m2 := AddToBucket(m1, level, tag);
      Returned(World(w.heap.(tags := w.heap.tags[tag := t.(level := Some(level))]), m2))
  }

  /**
    The first half of `reset_tag_level`: every tag in `tag`'s parent set
    drops it as a child, every tag in its child set drops it as a parent,
    and its own edge sets are emptied.
   */
  function Detach(h: Heap, tag: TagId): (r: Heap)
    requires tag in h.tags
    ensures SameLabels(h, r)
    ensures Rewired(h, r, tag, None)
    ensures Symmetric(h) ==> Symmetric(r) && forall x :: !HasChild(r, x, tag) && !HasParent(r, x, tag)
    ensures Closed(h) ==> Closed(r)
  {
    var t := h.tags[tag];
    var r := h.(tags := map x | x in h.tags ::
      if x == tag then t.(parents := {}, children := {})
      else h.tags[x].(
        children := h.tags[x].children - (if x in t.parents then {tag} else {}),
        parents := h.tags[x].parents - (if x in t.children then {tag} else {})));
    DetachedProperties(h, r, tag);
    r
  }

  /** `r` is `h` with `tag` cut loose from the neighbours its own sets list. */
  ghost predicate Detached(h: Heap, r: Heap, tag: TagId)
    requires tag in h.tags
  {
    && r.cases == h.cases
    && r.tags.Keys == h.tags.Keys
    && r.tags[tag] == h.tags[tag].(parents := {}, children := {})
    && forall x | x in h.tags && x != tag ::
         r.tags[x] == h.tags[x].(
           children := h.tags[x].children - (if x in h.tags[tag].parents then {tag} else {}),
           parents := h.tags[x].parents - (if x in h.tags[tag].children then {tag} else {}))
  }

  /** What detaching achieves, derived from its description. */
  lemma DetachedProperties(h: Heap, r: Heap, tag: TagId)
    requires tag in h.tags && Detached(h, r, tag)
    ensures SameLabels(h, r)
    ensures Rewired(h, r, tag, None)
    ensures Symmetric(h) ==> Symmetric(r) && forall x :: !HasChild(r, x, tag) && !HasParent(r, x, tag)
    ensures Closed(h) ==> Closed(r)
  {
  }

  /** Linking a parent to a detached tag. */
  lemma RewiredByParent(h: Heap, h1: Heap, tag: TagId, p: TagId)
    requires Rewired(h, h1, tag, None) && p in h1.tags
    ensures Rewired(h, AddParentTag(h1, tag, p), tag, Some(p))
  {
    var h2 := AddParentTag(h1, tag, p);
    assert h2.tags[tag].children == (if Some(p) == Some(tag) then {tag} else {}) by {
      assert forall y :: y in h2.tags[tag].children <==> HasChild(h2, tag, y);
    }
    assert h2.tags[tag].parents == {p} by {
      assert forall y :: y in h2.tags[tag].parents <==> HasParent(h2, tag, y);
    }
  }

  /** Rewiring speaks only of edges, so a change of level keeps it. */
  lemma RewiredKeptBySameEdges(h: Heap, h1: Heap, h2: Heap, tag: TagId, link: Option<TagId>)
    requires Rewired(h, h1, tag, link) && SameEdges(h1, h2)
    ensures Rewired(h, h2, tag, link)
  {
    assert forall x, y :: HasChild(h2, x, y) <==> HasChild(h1, x, y);
    assert forall x, y :: HasParent(h2, x, y) <==> HasParent(h1, x, y);
  }

  /**
    `reset_tag_level(tag, level, parent_tag)` for a tag already registered.
    Out of range it raises at once. Otherwise it detaches the tag from all
    its neighbours; a level-0 tag is then moved to bucket 0; otherwise it
    raises when the parent is missing or not registered one level up, or
    links the parent and, unless the level is unchanged, moves the tag.
   */
  function ResetTagLevel(w: World, tag: TagId, level: int, parent: Option<TagId>): (s: Step)
    requires WellFormed(w) && tag in w.heap.tags
    requires parent.Some? ==> parent.value in w.heap.tags
    ensures !(0 <= level < w.mgr.levels) ==> s == Raised(w, ValueError)
    ensures WellFormed(s.world) && SameCases(w.heap, s.world.heap)
    ensures OtherLevelsKept(w.heap, s.world.heap, tag)
    ensures s.world.mgr.levels == w.mgr.levels
    ensures 0 <= level < w.mgr.levels ==>
      var prior := w.heap.tags[tag].level;
      var linked := level > 0 && parent.Some? && InBucket(w.mgr, level - 1, parent.value);
      && (level > 0 && !linked ==> s.Raised? && s.error == ValueError)
      && (s.Returned? <==> (level == 0 || linked) && (prior == Some(level) || BucketOf(w.mgr, prior).Some?))
      && (s.Returned? ==> s.world.heap.tags[tag].level == Some(level))
      && (s.Raised? ==> s.world.mgr == w.mgr && s.world.heap.tags[tag].level == prior)
      && (s.Raised? && (level == 0 || linked) ==> s.error == (if prior.None? then TypeError else IndexError))
      && (s.Returned? && (level == 0 || prior != Some(level)) ==> InBucket(s.world.mgr, level, tag))
      && (s.Returned? && level > 0 && prior == Some(level) ==> s.world.mgr == w.mgr)
      && (s.Returned? && (level == 0 || prior != Some(level)) ==>
            forall i :: InBucket(s.world.mgr, i, tag) <==>
              i == level || (InBucket(w.mgr, i, tag) && Some(i) != BucketOf(w.mgr, prior)))
      && Rewired(w.heap, s.world.heap, tag, if linked then parent else None)
  {
    if level > w.mgr.levels - 1 || level < 0 then
      Raised(w, ValueError)
    else
      var w1 := World(Detach(w.heap, tag), w.mgr);
      if level == 0 then
        var s := SetTagNewLevel(w1, tag, 0);
        if s.Returned? then
          RewiredKeptBySameEdges(w.heap, w1.heap, s.world.heap, tag, None);
          s
        else s
      else if parent.None? || parent.value !in w.mgr.rootTags[level - 1] then
        Raised(w1, ValueError)
      else
        var w2 := World(AddParentTag(w1.heap, tag, parent.value), w.mgr);
        RewiredByParent(w.heap, w1.heap, tag, parent.value);
        if w.heap.tags[tag].level == Some(level) then
          Returned(w2)
        else
          var s := SetTagNewLevel(w2, tag, level);
          if s.Returned? then
            RewiredKeptBySameEdges(w.heap, w2.heap, s.world.heap, tag, parent);
            s
          else s
  }

  /** `case.tags`. */
  function GetCaseTags(h: Heap, c: CaseId): (r: set<TagId>)
    requires c in h.cases
    ensures forall t :: t in r <==> HasTag(h, c, t)
  {
    h.cases[c].tags
  }

  /** `tag.cases`. */
  function GetCasesInTag(h: Heap, t: TagId): (r: set<CaseId>)
    requires t in h.tags
    ensures forall c :: c in r <==> HoldsCase(h, t, c)
  {
    h.tags[t].cases
  }

  /** With mirrored case links the two queries agree: a case lists a tag
      exactly when the tag lists the case. */
  lemma CaseQueriesAgree(h: Heap, c: CaseId, t: TagId)
    requires CasesSymmetric(h) && c in h.cases && t in h.tags
    ensures t in GetCaseTags(h, c) <==> c in GetCasesInTag(h, t)
  {
    assert HoldsCase(h, t, c) <==> HasTag(h, c, t);
  }

  /**
    `set_case_tag(case, tag)`: `case.add_tag(tag)`, then `tag.add_case(case)`.
    The case and the tag end up linked both ways; every other link stays,
    including other tags of the case at the same level; the hierarchy is
    untouched.
   */
  function SetCaseTag(h: Heap, c: CaseId, t: TagId): (r: Heap)
    requires c in h.cases && t in h.tags
    ensures r == AddCase(h, t, c)
    ensures r.tags.Keys == h.tags.Keys && r.cases.Keys == h.cases.Keys
    ensures t in GetCaseTags(r, c) && c in GetCasesInTag(r, t)
    ensures GetCaseTags(r, c) == GetCaseTags(h, c) + {t}
    ensures GetCasesInTag(r, t) == GetCasesInTag(h, t) + {c}
    ensures forall y | y in h.cases && y != c :: r.cases[y] == h.cases[y]
    ensures forall x | x in h.tags && x != t :: r.tags[x] == h.tags[x]
    ensures SameGraph(h, r)
    ensures CasesSymmetric(h) ==> CasesSymmetric(r)
  {
    var h1 := CaseAddTag(h, c, t);
    var r := AddCase(h1, t, c);
    assert r.cases[c].tags == h.cases[c].tags + {t};
    assert r.cases == AddCase(h, t, c).cases;
    r
  }

  /**
    Registering a tag that has no edges and sits in no bucket keeps the
    hierarchy invariants, whether the call returns or raises.
   */
  lemma SetTagLevelKeepsHierarchy(w: World, tag: TagId, level: int, parent: Option<TagId>)
    requires Hierarchy(w) && tag in w.heap.tags
    requires parent.Some? ==> parent.value in w.heap.tags
    requires w.heap.tags[tag].parents == {} && w.heap.tags[tag].children == {}
    requires forall i :: !InBucket(w.mgr, i, tag)
    ensures Hierarchy(SetTagLevel(w, tag, level, parent).world)
  {
    var s := SetTagLevel(w, tag, level, parent);
    if 0 <= level < w.mgr.levels {
      var link := if s.Returned? && level > 0 then parent else None;
      assert link.Some? ==> link.value != tag && w.heap.tags[link.value].level == Some(level - 1);
      RelinkKeepsEdgeInvariants(w.heap, s.world.heap, tag, level, link, w.mgr.levels);
    }
  }

  /** Giving an isolated tag a level in range and a parent one level up keeps
      the edges symmetric and layered. */
  lemma RelinkKeepsEdgeInvariants(h: Heap, h': Heap, tag: TagId, level: int, link: Option<TagId>, levels: int)
    requires Relinked(h, h', tag, level, link) && 0 <= level < levels
    requires Symmetric(h) && Layered(h, levels)
    requires h.tags[tag].parents == {} && h.tags[tag].children == {}
    requires link.Some? ==> level > 0 && link.value in h.tags && link.value != tag && h.tags[link.value].level == Some(level - 1)
    ensures Symmetric(h') && Layered(h', levels)
  {
    assert forall x :: !HasChild(h, x, tag) && !HasParent(h, x, tag);
    forall a, b
      ensures HasChild(h', a, b) <==> HasParent(h', b, a)
      ensures HasChild(h', a, b) || HasParent(h', b, a) ==> OneLevelBelow(h', a, b, levels)
    {
      if a != tag && b != tag {
        assert HasChild(h', a, b) <==> HasChild(h, a, b);
        assert HasParent(h', b, a) <==> HasParent(h, b, a);
        if HasChild(h, a, b) || HasParent(h, b, a) {
          assert OneLevelBelow(h, a, b, levels);
        }
      } else if a == tag {
        assert !HasChild(h', a, b);
        if b != tag {
          assert !HasParent(h, b, tag);
          assert !HasParent(h', b, a);
        } else {
          assert !HasParent(h', b, a);
        }
      } else {
        assert !HasChild(h, a, tag);
        assert HasChild(h', a, tag) <==> link == Some(a);
        assert HasParent(h', tag, a) <==> link == Some(a);
      }
    }
  }

  /** `reset_tag_level` moves at most the tag itself between buckets: every
      other tag stays in exactly the buckets it was in, returned or raised. */
  lemma ResetTagLevelKeepsOtherBuckets(w: World, tag: TagId, level: int, parent: Option<TagId>)
    requires WellFormed(w) && tag in w.heap.tags
    requires parent.Some? ==> parent.value in w.heap.tags
    ensures var s := ResetTagLevel(w, tag, level, parent);
            forall i, x :: x != tag ==> (InBucket(s.world.mgr, i, x) <==> InBucket(w.mgr, i, x))
  {
    var s := ResetTagLevel(w, tag, level, parent);
    if 0 <= level < w.mgr.levels {
      var w1 := World(Detach(w.heap, tag), w.mgr);
      if level == 0 {
        assert s == SetTagNewLevel(w1, tag, 0);
      } else if level > 0 && parent.Some? && parent.value in w.mgr.rootTags[level - 1] && w.heap.tags[tag].level != Some(level) {
        var w2 := World(AddParentTag(w1.heap, tag, parent.value), w.mgr);
        assert s == SetTagNewLevel(w2, tag, level);
      }
    }
  }

  /** Re-linking a tag to a parent one level up (or to none at level 0) and
      giving it that level keeps the edges symmetric and layered. */
  lemma RewireKeepsEdgeInvariants(h: Heap, h': Heap, tag: TagId, level: int, link: Option<TagId>, levels: int)
    requires Rewired(h, h', tag, link) && SameCases(h, h') && OtherLevelsKept(h, h', tag)
    requires h'.tags[tag].level == Some(level) && 0 <= level < levels
    requires Symmetric(h) && Layered(h, levels)
    requires link.Some? ==> level > 0 && link.value in h.tags && link.value != tag && h.tags[link.value].level == Some(level - 1)
    ensures Symmetric(h') && Layered(h', levels)
  {
    forall a, b
      ensures HasChild(h', a, b) <==> HasParent(h', b, a)
      ensures HasChild(h', a, b) || HasParent(h', b, a) ==> OneLevelBelow(h', a, b, levels)
    {
      if a != tag && b != tag {
        assert HasChild(h', a, b) <==> HasChild(h, a, b);
        assert HasParent(h', b, a) <==> HasParent(h, b, a);
      } else if a == tag {
        assert !HasChild(h', a, b);
        if b != tag {
          assert HasParent(h, b, tag) <==> HasChild(h, tag, b);
        }
      } else {
        assert HasChild(h, a, tag) <==> HasParent(h, tag, a);
      }
    }
  }

  /**
    Re-levelling or re-parenting a tag under a parent other than itself keeps
    the hierarchy invariants when the call returns.
   */
  lemma ResetTagLevelKeepsHierarchy(w: World, tag: TagId, level: int, parent: Option<TagId>)
    requires Hierarchy(w) && tag in w.heap.tags
    requires parent.Some? ==> parent.value in w.heap.tags && parent.value != tag
    ensures ResetTagLevel(w, tag, level, parent).Returned? ==> Hierarchy(ResetTagLevel(w, tag, level, parent).world)
  {
    var s := ResetTagLevel(w, tag, level, parent);
    if s.Returned? {
      var h, h' := w.heap, s.world.heap;
      var link := if level > 0 then parent else None;
      assert Rewired(h, h', tag, link);
      assert link.Some? ==> h.tags[link.value].level == Some(level - 1);
      RewireKeepsEdgeInvariants(h, h', tag, level, link, w.mgr.levels);
      ResetTagLevelKeepsOtherBuckets(w, tag, level, parent);
      forall i, x | InBucket(s.world.mgr, i, x)
        ensures x in h'.tags && h'.tags[x].level == Some(i)
      {
        if x == tag && InBucket(w.mgr, i, tag) {
          assert h.tags[tag].level == Some(i);
          assert BucketOf(w.mgr, Some(i)) == Some(i);
        }
      }
    }
  }

  /** The tags of the buckets, each counted once per bucket holding it. */
  function BucketsMultiset(buckets: seq<set<TagId>>): (r: multiset<TagId>)
    ensures forall t :: t in r <==> exists i :: 0 <= i < |buckets| && t in buckets[i]
  {
    if buckets == [] then multiset{}
    else
      var r := BucketsMultiset(buckets[..|buckets| - 1]) + multiset(buckets[|buckets| - 1]);
      assert forall i | 0 <= i < |buckets| - 1 :: buckets[..|buckets| - 1][i] == buckets[i];
      r
  }

  /**
    `get_all_tags()`: the buckets flattened into one list, level by level;
    within a bucket the order is the set's iteration order, which Python
    leaves unspecified and the model leaves open.
   */
  method GetAllTags(m: Manager) returns (all: seq<TagId>)
    ensures forall t :: t in all <==> exists i :: InBucket(m, i, t)
    ensures multiset(all) == BucketsMultiset(m.rootTags)
  {
    all := [];
    var i := 0;
    while i < |m.rootTags|
      invariant 0 <= i <= |m.rootTags|
      invariant multiset(all) == BucketsMultiset(m.rootTags[..i])
    {
      all := Extend(all, m.rootTags[i]);
      assert m.rootTags[..i + 1][..i] == m.rootTags[..i];
      i := i + 1;
    }
    assert m.rootTags[..i] == m.rootTags;
    forall t
      ensures t in all <==> exists i :: InBucket(m, i, t)
    {
      assert t in all <==> t in multiset(all);
      if t in all {
        var i :| 0 <= i < |m.rootTags| && t in m.rootTags[i];
        assert InBucket(m, i, t);
      }
    }
  }

  /** `tags.extend(bucket)`: appends the bucket's tags in some order. */
  method Extend(prefix: seq<TagId>, bucket: set<TagId>) returns (all: seq<TagId>)
    ensures multiset(all) == multiset(prefix) + multiset(bucket)
    ensures |prefix| <= |all| && all[..|prefix|] == prefix
  {
    all := prefix;
    var rest := bucket;
    while rest != {}
      invariant rest <= bucket
      invariant multiset(all) + multiset(rest) == multiset(prefix) + multiset(bucket)
      invariant |prefix| <= |all| && all[..|prefix|] == prefix
      decreases rest
    {
      var t :| t in rest;
      assert multiset(rest) == multiset(rest - {t}) + multiset{t};
      all := all + [t];
      rest := rest - {t};
    }
  }

  /** When each registered tag's level names its bucket, no tag is listed twice. */
  lemma {:induction false} BucketedListsOnce(buckets: seq<set<TagId>>, level: map<TagId, int>)
    requires forall i, t | 0 <= i < |buckets| && t in buckets[i] :: t in level && level[t] == i
    ensures forall t :: BucketsMultiset(buckets)[t] <= 1
  {
    if buckets != [] {
      var n := |buckets| - 1;
      BucketedListsOnce(buckets[..n], level);
      forall t ensures BucketsMultiset(buckets)[t] <= 1 {
        if t in buckets[n] {
          assert level[t] == n;
          forall i | 0 <= i < n
            ensures t !in buckets[..n][i]
          {
            assert buckets[..n][i] == buckets[i];
          }
          assert t !in BucketsMultiset(buckets[..n]);
        }
      }
    }
  }

  /** Under the hierarchy invariants `get_all_tags()` lists every registered
      tag exactly once. */
  lemma AllTagsOnce(w: World, all: seq<TagId>)
    requires Bucketed(w)
    requires multiset(all) == BucketsMultiset(w.mgr.rootTags)
    ensures forall t :: multiset(all)[t] <= 1
  {
    var level := map t | t in w.heap.tags && w.heap.tags[t].level.Some? :: w.heap.tags[t].level.value;
    assert forall i, t | 0 <= i < |w.mgr.rootTags| && t in w.mgr.rootTags[i] :: InBucket(w.mgr, i, t);
    BucketedListsOnce(w.mgr.rootTags, level);
  }
}

=== FILE: tags.dfy ===
/**
  Tags and cases of the test framework, as records in an arena.

  Python's `Tag` and `Case` objects refer to each other through mutable sets;
  here every tag and case has an integer id, the heap maps ids to records,
  and an operation on an object returns the whole new heap. Each operation
  updates the records in the order the Python statements do, so a tag that
  is its own parent or child is handled as the Python code handles it.
 */
module Tags {
  import opened PyValues

  type TagId = nat
  type CaseId = nat

  /** A classification node: its name, its level (unset when constructed
      without one) and the ids of its parents, children and cases. */
  datatype Tag = Tag(
    name: string,
    level: Option<int>,
    parents: set<TagId>,
    children: set<TagId>,
    cases: set<CaseId>)

  /** A test case as far as tagging is concerned: its id and its tags. */
  datatype Case = Case(caseId: string, tags: set<TagId>)

  /** Every tag and case object in existence. */
  datatype Heap = Heap(tags: map<TagId, Tag>, cases: map<CaseId, Case>)

  /** `b` is in `a.child_tags`. */
  predicate HasChild(h: Heap, a: TagId, b: TagId) {
    a in h.tags && b in h.tags[a].children
  }

  /** `b` is in `a.parent_tags`. */
  predicate HasParent(h: Heap, a: TagId, b: TagId) {
    a in h.tags && b in h.tags[a].parents
  }

  /** `c` is in `t.cases`. */
  predicate HoldsCase(h: Heap, t: TagId, c: CaseId) {
    t in h.tags && c in h.tags[t].cases
  }

  /** `t` is in `c.tags`. */
  predicate HasTag(h: Heap, c: CaseId, t: TagId) {
    c in h.cases && t in h.cases[c].tags
  }

  /** No id refers to a missing object. */
  ghost predicate Closed(h: Heap) {
    && (forall t | t in h.tags ::
          && h.tags[t].parents <= h.tags.Keys
          && h.tags[t].children <= h.tags.Keys
          && h.tags[t].cases <= h.cases.Keys)
    && (forall c | c in h.cases :: h.cases[c].tags <= h.tags.Keys)
  }

  /** The parent and child edges mirror each other; this also rules out an
      edge to a missing tag. */
  ghost predicate Symmetric(h: Heap) {
    forall a, b :: HasChild(h, a, b) <==> HasParent(h, b, a)
  }

  /** The case sets of tags and the tag sets of cases mirror each other. */
  ghost predicate CasesSymmetric(h: Heap) {
    forall t, c :: HoldsCase(h, t, c) <==> HasTag(h, c, t)
  }

  /** `b` sits exactly one level below `a`, both levels in `[0, levels)`. */
  predicate OneLevelBelow(h: Heap, a: TagId, b: TagId, levels: int) {
    && a in h.tags && b in h.tags
    && h.tags[a].level.Some? && h.tags[b].level.Some?
    && 0 <= h.tags[a].level.value
    && h.tags[b].level.value == h.tags[a].level.value + 1
    && h.tags[b].level.value < levels
  }

  /** Every edge, recorded on either side, joins a tag to a tag exactly
      one level below it, within `levels` levels. */
  ghost predicate Layered(h: Heap, levels: int) {
    forall a, b :: HasChild(h, a, b) || HasParent(h, b, a) ==> OneLevelBelow(h, a, b, levels)
  }

  /** Same objects, and every tag keeps its name, level and cases: only the
      parent and child sets may differ. */
  ghost predicate SameLabels(h: Heap, h': Heap) {
    && h'.tags.Keys == h.tags.Keys
    && h'.cases == h.cases
    && forall x | x in h.tags ::
         && h'.tags[x].name == h.tags[x].name
         && h'.tags[x].level == h.tags[x].level
         && h'.tags[x].cases == h.tags[x].cases
  }

  /** Same objects, and every tag keeps its name, level and edges: only the
      case associations may differ. */
  ghost predicate SameGraph(h: Heap, h': Heap) {
    && h'.tags.Keys == h.tags.Keys
    && h'.cases.Keys == h.cases.Keys
    && forall x | x in h.tags ::
         && h'.tags[x].name == h.tags[x].name
         && h'.tags[x].level == h.tags[x].level
         && h'.tags[x].parents == h.tags[x].parents
         && h'.tags[x].children == h.tags[x].children
  }

  /** `self.child_tags.add(child)`, then `child.parent_tags.add(self)`. */
  function AddChildTag(h: Heap, self: TagId, child: TagId): (r: Heap)
    requires self in h.tags && child in h.tags
    ensures SameLabels(h, r)
    ensures forall x, y :: HasChild(r, x, y) <==> HasChild(h, x, y) || (x == self && y == child)
    ensures forall x, y :: HasParent(r, x, y) <==> HasParent(h, x, y) || (x == child && y == self)
    ensures Symmetric(h) ==> Symmetric(r)
    ensures Closed(h) ==> Closed(r)
  {
    var s := h.tags[self];
    var h1 := h.(tags := h.tags[self := s.(children := s.children + {child})]);
    var c := h1.tags[child];
    h1.(tags := h1.tags[child := c.(parents := c.parents + {self})])
  }

  /** `self.parent_tags.add(parent)`, then `parent.child_tags.add(self)`:
      the same edge as `parent.add_child_tag(self)` adds. */
  function AddParentTag(h: Heap, self: TagId, parent: TagId): (r: Heap)
    requires self in h.tags && parent in h.tags
    ensures r == AddChildTag(h, parent, self)
  {
    var s := h.tags[self];
    var h1 := h.(tags := h.tags[self := s.(parents := s.parents + {parent})]);
    var p := h1.tags[parent];
    h1.(tags := h1.tags[parent := p.(children := p.children + {self})])
  }

  /** `a.child_tags.discard(b)`: one side of an edge removal. */
  function DiscardChild(h: Heap, a: TagId, b: TagId): (r: Heap)
    requires a in h.tags
    ensures SameLabels(h, r)
    ensures forall x, y :: HasChild(r, x, y) <==> HasChild(h, x, y) && !(x == a && y == b)
    ensures forall x, y :: HasParent(r, x, y) <==> HasParent(h, x, y)
    ensures !HasChild(h, a, b) ==> r == h
    ensures Closed(h) ==> Closed(r)
  {
    var t := h.tags[a];
    if b in t.children then h.(tags := h.tags[a := t.(children := t.children - {b})]) else h
  }

  /** `b.parent_tags.discard(a)`: the other side of an edge removal. */
  function DiscardParent(h: Heap, b: TagId, a: TagId): (r: Heap)
    requires b in h.tags
    ensures SameLabels(h, r)
    ensures forall x, y :: HasParent(r, x, y) <==> HasParent(h, x, y) && !(x == b && y == a)
    ensures forall x, y :: HasChild(r, x, y) <==> HasChild(h, x, y)
    ensures !HasParent(h, b, a) ==> r == h
    ensures Closed(h) ==> Closed(r)
  {
    var t := h.tags[b];
    if a in t.parents then h.(tags := h.tags[b := t.(parents := t.parents - {a})]) else h
  }

  /** `self.child_tags.discard(child)`, then `child.parent_tags.discard(self)`:
      never fails, and changes nothing when the edge is absent. */
  function DeleteChildTag(h: Heap, self: TagId, child: TagId): (r: Heap)
    requires self in h.tags && child in h.tags
    ensures SameLabels(h, r)
    ensures forall x, y :: HasChild(r, x, y) <==> HasChild(h, x, y) && !(x == self && y == child)
    ensures forall x, y :: HasParent(r, x, y) <==> HasParent(h, x, y) && !(x == child && y == self)
    ensures !HasChild(h, self, child) && !HasParent(h, child, self) ==> r == h
    ensures Symmetric(h) ==> Symmetric(r)
    ensures Closed(h) ==> Closed(r)
  {
    DiscardParent(DiscardChild(h, self, child), child, self)
  }

  /** `self.parent_tags.discard(parent)`, then `parent.child_tags.discard(self)`:
      the same as `parent.delete_child_tag(self)`. */
  function DeleteParentTag(h: Heap, self: TagId, parent: TagId): (r: Heap)
    requires self in h.tags && parent in h.tags
    ensures r == DeleteChildTag(h, parent, self)
  {
    DiscardChild(DiscardParent(h, self, parent), parent, self)
  }

  /**
    `Tag(tag_name, level, parent_tag)` allocating the fresh id `id`: a tag
    with no edges and no cases, linked under `parent_tag` when one is given
    (a `Tag` object is always truthy).
   */
  function NewTag(h: Heap, id: TagId, name: string, level: Option<int>, parent: Option<TagId>): (r: Heap)
    requires id !in h.tags
    requires parent.Some? ==> parent.value in h.tags
    ensures r.tags.Keys == h.tags.Keys + {id} && r.cases == h.cases
    ensures r.tags[id] == Tag(name, level, if parent.Some? then {parent.value} else {}, {}, {})
    ensures forall x, y :: HasChild(r, x, y) <==> HasChild(h, x, y) || (parent.Some? && x == parent.value && y == id)
    ensures forall x | x in h.tags ::
      && r.tags[x].name == h.tags[x].name && r.tags[x].level == h.tags[x].level
      && r.tags[x].parents == h.tags[x].parents && r.tags[x].cases == h.tags[x].cases
    ensures Symmetric(h) ==> Symmetric(r)
    ensures Closed(h) ==> Closed(r)
  {
    var h1 := h.(tags := h.tags[id := Tag(name, level, {}, {}, {})]);
    assert forall x, y :: HasChild(h1, x, y) <==> HasChild(h, x, y);
    assert forall x, y :: HasParent(h1, x, y) <==> HasParent(h, x, y);
    if parent.Some? then
      var h2 := AddParentTag(h1, id, parent.value);
      AddChildTagIdempotent(h1, parent.value, id);
      AddChildTag(h2, parent.value, id)
    else h1
  }

  /** `Case(case_id)` allocating the fresh id `id`: a case without tags. */
  function NewCase(h: Heap, id: CaseId, caseId: string): (r: Heap)
    requires id !in h.cases
    ensures r.tags == h.tags && r.cases.Keys == h.cases.Keys + {id}
    ensures r.cases[id] == Case(caseId, {})
    ensures forall c | c in h.cases :: r.cases[c] == h.cases[c]
    ensures CasesSymmetric(h) ==> CasesSymmetric(r)
    ensures Closed(h) ==> Closed(r)
  {
    var r := h.(cases := h.cases[id := Case(caseId, {})]);
    assert forall y, x :: HasTag(r, y, x) <==> HasTag(h, y, x);
    r
  }

  /** `Case.add_tag`: adds `t` to the case's tags and touches no tag. */
  function CaseAddTag(h: Heap, c: CaseId, t: TagId): (r: Heap)
    requires c in h.cases && t in h.tags
    ensures r.tags == h.tags && r.cases.Keys == h.cases.Keys
    ensures forall y, x :: HasTag(r, y, x) <==> HasTag(h, y, x) || (y == c && x == t)
    ensures forall y | y in h.cases :: r.cases[y].caseId == h.cases[y].caseId
    ensures Closed(h) ==> Closed(r)
  {
    var k := h.cases[c];
    h.(cases := h.cases[c := k.(tags := k.tags + {t})])
  }

  /** `Tag.add_case`: adds the case to the tag's cases, then the tag to the
      case's tags; nothing else changes. */
  function AddCase(h: Heap, t: TagId, c: CaseId): (r: Heap)
    requires t in h.tags && c in h.cases
    ensures SameGraph(h, r)
    ensures forall x, y :: HoldsCase(r, x, y) <==> HoldsCase(h, x, y) || (x == t && y == c)
    ensures forall y, x :: HasTag(r, y, x) <==> HasTag(h, y, x) || (y == c && x == t)
    ensures forall y | y in h.cases :: r.cases[y].caseId == h.cases[y].caseId
    ensures CasesSymmetric(h) ==> CasesSymmetric(r)
    ensures Closed(h) ==> Closed(r)
  {
    var g := h.tags[t];
    CaseAddTag(h.(tags := h.tags[t := g.(cases := g.cases + {c})]), c, t)
  }

  /** Adding an edge that is already there changes nothing. */
  lemma AddChildTagIdempotent(h: Heap, a: TagId, b: TagId)
    requires a in h.tags && b in h.tags
    ensures AddChildTag(AddChildTag(h, a, b), a, b) == AddChildTag(h, a, b)
  {
    var h1 := AddChildTag(h, a, b);
    var h2 := AddChildTag(h1, a, b);
    assert h2.tags == h1.tags by {
      forall x | x in h1.tags
        ensures h2.tags[x] == h1.tags[x]
      {
        assert HasChild(h1, a, b) && HasParent(h1, b, a);
      }
    }
  }

  /** Deleting an edge just added restores the heap, when the edge was absent
      on both sides before. */
  lemma DeleteUndoesAdd(h: Heap, a: TagId, b: TagId)
    requires a in h.tags && b in h.tags
    requires !HasChild(h, a, b) && !HasParent(h, b, a)
    ensures DeleteChildTag(AddChildTag(h, a, b), a, b) == h
  {
    var h2 := DeleteChildTag(AddChildTag(h, a, b), a, b);
    assert h2.tags == h.tags by {
      forall x | x in h.tags
        ensures h2.tags[x] == h.tags[x]
      {
        assert h2.tags[x].children == h.tags[x].children by {
          forall y ensures y in h2.tags[x].children <==> y in h.tags[x].children {
            assert HasChild(h2, x, y) <==> HasChild(h, x, y);
          }
        }
        assert h2.tags[x].parents == h.tags[x].parents by {
          forall y ensures y in h2.tags[x].parents <==> y in h.tags[x].parents {
            assert HasParent(h2, x, y) <==> HasParent(h, x, y);
          }
        }
      }
    }
  }
}

=== FILE: traversal.dfy ===
/**
  `get_descendants` and `get_ancestors`: the transitive closure over child
  or parent edges, computed by plain recursion with no visited set.

  The recursion returns only when every chain of edges from the start tag is
  shorter than the interpreter's recursion limit, and otherwise raises
  `RecursionError`; on a cycle it always raises. `depth` stands for the
  number of nested calls the interpreter still allows.
 */
module Traversal {
  import opened Tags

  /** Which edges a traversal follows: children going down, parents going up. */
  datatype Direction = Down | Up

  /** How a traversal ends: with the tags reached, or with `RecursionError`. */
  datatype Walked = Reached(tags: set<TagId>) | RecursionError

  /** The tags one edge away from `a`. */
  function Next(h: Heap, d: Direction, a: TagId): set<TagId> {
    if a !in h.tags then {} else if d == Down then h.tags[a].children else h.tags[a].parents
  }

  /** Each tag of `p` is one edge away from the one before it. */
  ghost predicate Chain(h: Heap, d: Direction, p: seq<TagId>) {
    forall i | 0 < i < |p| :: p[i] in Next(h, d, p[i - 1])
  }

  /** `x` lies one or more edges away from `t`. */
  ghost predicate Reaches(h: Heap, d: Direction, t: TagId, x: TagId) {
    exists p :: |p| >= 2 && p[0] == t && p[|p| - 1] == x && Chain(h, d, p)
  }

  /** Some chain of `n` edges starts at `t`: the recursion from `t` nests
      `n + 1` calls deep along it. */
  ghost predicate ChainFrom(h: Heap, d: Direction, t: TagId, n: nat) {
    exists p :: |p| == n + 1 && p[0] == t && Chain(h, d, p)
  }

  /**
    The recursion of `get_descendants` (going down) and `get_ancestors`
    (going up): every neighbour, plus everything the recursive call on that
    neighbour returns.
   */
  function Walk(h: Heap, d: Direction, t: TagId, depth: nat): (r: Walked)
    ensures depth == 0 ==> r.RecursionError?
    ensures r.Reached? ==> depth > 0 && Next(h, d, t) <= r.tags
    decreases depth
  {
    if depth == 0 then RecursionError
    else
      var next, inner := Next(h, d, t), depth - 1;
      if exists c | c in next :: Walk(h, d, c, inner).RecursionError? then RecursionError
      else Reached(next + set c, x | c in next && x in TagsOf(Walk(h, d, c, inner)) :: x)
  }

  /** The tags a finished walk reached; none after `RecursionError`. */
  function TagsOf(w: Walked): set<TagId> {
    if w.Reached? then w.tags else {}
  }

  /** `get_descendants(tag)`: every tag reachable through child edges. */
  function GetDescendants(h: Heap, t: TagId, depth: nat): (r: Walked)
    ensures r.Reached? ==> forall x :: x in r.tags <==> Reaches(h, Down, t, x)
    ensures r.RecursionError? <==> ChainFrom(h, Down, t, depth)
  {
    WalkReaches(h, Down, t, depth);
    WalkOverflows(h, Down, t, depth);
    Walk(h, Down, t, depth)
  }

  /** A tag that is its own child makes `get_descendants` recurse until the
      interpreter's limit, however high that is. */
  lemma SelfLoopOverflows(h: Heap, t: TagId, depth: nat)
    requires HasChild(h, t, t)
    ensures GetDescendants(h, t, depth).RecursionError?
  {
    var p := seq(depth + 1, _ => t);
    assert Chain(h, Down, p);
  }

  /** `get_ancestors(tag)`: every tag reachable through parent edges. */
  function GetAncestors(h: Heap, t: TagId, depth: nat): (r: Walked)
    ensures r.Reached? ==> forall x :: x in r.tags <==> Reaches(h, Up, t, x)
    ensures r.RecursionError? <==> ChainFrom(h, Up, t, depth)
  {
    WalkReaches(h, Up, t, depth);
    WalkOverflows(h, Up, t, depth);
    Walk(h, Up, t, depth)
  }

  /** A chain stays a chain when a tag one edge before its head is put in front. */
  lemma ChainCons(h: Heap, d: Direction, t: TagId, q: seq<TagId>)
    requires Chain(h, d, q) && |q| >= 1 && q[0] in Next(h, d, t)
    ensures Chain(h, d, [t] + q)
  {
    var p := [t] + q;
    forall i | 0 < i < |p|
      ensures p[i] in Next(h, d, p[i - 1])
    {
      if i > 1 {
        assert p[i] == q[i - 1] && p[i - 1] == q[i - 2];
      }
    }
  }

  /** Dropping the head of a chain leaves a chain. */
  lemma ChainTail(h: Heap, d: Direction, p: seq<TagId>)
    requires Chain(h, d, p) && |p| >= 1
    ensures Chain(h, d, p[1..])
  {
    var q := p[1..];
    forall i | 0 < i < |q|
      ensures q[i] in Next(h, d, q[i - 1])
    {
      assert q[i] == p[i + 1] && q[i - 1] == p[i];
    }
  }

  /** When the walk returns, it returns exactly the tags reachable from `t`. */
  lemma {:induction false} WalkReaches(h: Heap, d: Direction, t: TagId, depth: nat)
    ensures Walk(h, d, t, depth).Reached? ==>
      forall x :: x in Walk(h, d, t, depth).tags <==> Reaches(h, d, t, x)
    decreases depth
  {
    var r := Walk(h, d, t, depth);
    if r.Reached? {
      var next := Next(h, d, t);
      forall c | c in next {
        WalkReaches(h, d, c, depth - 1);
      }
      forall x
        ensures x in r.tags <==> Reaches(h, d, t, x)
      {
        if x in next {
          var p := [t, x];
          assert Chain(h, d, p);
        } else if x in r.tags {
          var c :| c in next && x in TagsOf(Walk(h, d, c, depth - 1));
          assert Reaches(h, d, c, x);
          var q :| |q| >= 2 && q[0] == c && q[|q| - 1] == x && Chain(h, d, q);
          ChainCons(h, d, t, q);
          assert ([t] + q)[|[t] + q| - 1] == x;
        }
        if Reaches(h, d, t, x) {
          var p :| |p| >= 2 && p[0] == t && p[|p| - 1] == x && Chain(h, d, p);
          var c := p[1];
          assert c in next;
          if |p| > 2 {
            ChainTail(h, d, p);
            assert Reaches(h, d, c, x) by {
              assert p[1..][|p[1..]| - 1] == x;
            }
            assert Walk(h, d, c, depth - 1).Reached?;
            assert x in TagsOf(Walk(h, d, c, depth - 1));
          }
        }
      }
    }
  }

  /** The walk raises `RecursionError` exactly when a chain of `depth` edges
      starts at `t`. */
  lemma {:induction false} WalkOverflows(h: Heap, d: Direction, t: TagId, depth: nat)
    ensures Walk(h, d, t, depth).RecursionError? <==> ChainFrom(h, d, t, depth)
    decreases depth
  {
    if depth == 0 {
      assert Chain(h, d, [t]);
    } else {
      var next := Next(h, d, t);
      if Walk(h, d, t, depth).RecursionError? {
        var c :| c in next && Walk(h, d, c, depth - 1).RecursionError?;
        WalkOverflows(h, d, c, depth - 1);
        var q :| |q| == depth && q[0] == c && Chain(h, d, q);
        ChainCons(h, d, t, q);
        assert ([t] + q)[0] == t;
      }
      if ChainFrom(h, d, t, depth) {
        var p :| |p| == depth + 1 && p[0] == t && Chain(h, d, p);
        var c := p[1];
        ChainTail(h, d, p);
        assert ChainFrom(h, d, c, depth - 1) by {
          assert p[1..][0] == c;
        }
        WalkOverflows(h, d, c, depth - 1);
        assert c in next;
      }
    }
  }

  /** The level of a tag that has one, for use along a layered chain. */
  function LevelOf(h: Heap, x: TagId): int
    requires x in h.tags && h.tags[x].level.Some?
  {
    h.tags[x].level.value
  }

  /** Along a chain of a layered hierarchy every tag has a level in range, and
      each edge moves one level down (or up, going up). */
  lemma {:induction false} ChainLevels(h: Heap, d: Direction, p: seq<TagId>, levels: int)
    requires Layered(h, levels) && Chain(h, d, p) && |p| >= 2
    ensures forall k | 0 <= k < |p| :: p[k] in h.tags && h.tags[p[k]].level.Some?
    ensures forall k | 0 <= k < |p| :: 0 <= LevelOf(h, p[k]) < levels
    ensures forall k | 0 <= k < |p| ::
      LevelOf(h, p[k]) == if d == Down then LevelOf(h, p[0]) + k else LevelOf(h, p[0]) - k
    ensures |p| <= levels && p[|p| - 1] != p[0]
  {
    var n := |p| - 1;
    var a, b := p[n - 1], p[n];
    assert b in Next(h, d, a);
    if d == Down {
      assert HasChild(h, a, b);
      assert OneLevelBelow(h, a, b, levels);
    } else {
      assert HasParent(h, a, b);
      assert OneLevelBelow(h, b, a, levels);
    }
    if n > 1 {
      var q := p[..n];
      assert Chain(h, d, q) by {
        forall i | 0 < i < |q|
          ensures q[i] in Next(h, d, q[i - 1])
        {
          assert q[i] == p[i] && q[i - 1] == p[i - 1];
        }
      }
      ChainLevels(h, d, q, levels);
      assert forall k | 0 <= k < n :: q[k] == p[k];
    }
    assert LevelOf(h, p[n]) == if d == Down then LevelOf(h, p[0]) + n else LevelOf(h, p[0]) - n;
  }

  /** On a layered hierarchy a walk allowed at least `levels` nested calls
      (and at least one) always returns. */
  lemma WalkTerminatesWhenLayered(h: Heap, d: Direction, t: TagId, levels: int, depth: nat)
    requires Layered(h, levels) && depth >= levels && depth >= 1
    ensures Walk(h, d, t, depth).Reached?
  {
    WalkOverflows(h, d, t, depth);
    if ChainFrom(h, d, t, depth) {
      var p :| |p| == depth + 1 && p[0] == t && Chain(h, d, p);
      ChainLevels(h, d, p, levels);
    }
  }

  /** On a layered hierarchy no tag is its own descendant or ancestor. */
  lemma WalkExcludesStartWhenLayered(h: Heap, d: Direction, t: TagId, levels: int, depth: nat)
    requires Layered(h, levels) && Walk(h, d, t, depth).Reached?
    ensures t !in Walk(h, d, t, depth).tags
  {
    WalkReaches(h, d, t, depth);
    if t in Walk(h, d, t, depth).tags {
      var p :| |p| >= 2 && p[0] == t && p[|p| - 1] == t && Chain(h, d, p);
      ChainLevels(h, d, p, levels);
    }
  }

  /** The reverse of a chain of child edges is a chain of parent edges, when
      the edges are recorded on both sides. */
  lemma ReverseChain(h: Heap, p: seq<TagId>)
    requires Symmetric(h) && Chain(h, Down, p)
    ensures Chain(h, Up, Reverse(p))
  {
    var q := Reverse(p);
    var n := |p|;
    forall i | 0 < i < n
      ensures q[i] in Next(h, Up, q[i - 1])
    {
      var a, b := p[n - 1 - i], p[n - i];
      assert q[i] == a && q[i - 1] == b;
      assert HasChild(h, a, b);
    }
  }

  /** The reverse of a chain of parent edges is a chain of child edges. */
  lemma ReverseUpChain(h: Heap, p: seq<TagId>)
    requires Symmetric(h) && Chain(h, Up, p)
    ensures Chain(h, Down, Reverse(p))
  {
    var q := Reverse(p);
    var n := |p|;
    forall i | 0 < i < n
      ensures q[i] in Next(h, Down, q[i - 1])
    {
      var a, b := p[n - 1 - i], p[n - i];
      assert q[i] == a && q[i - 1] == b;
      assert HasParent(h, a, b);
    }
  }

  /** `p` backwards. */
  function Reverse(p: seq<TagId>): (q: seq<TagId>)
    ensures |q| == |p| && forall i | 0 <= i < |p| :: q[i] == p[|p| - 1 - i]
  {
    seq(|p|, i requires 0 <= i < |p| => p[|p| - 1 - i])
  }

  /** With symmetric edges, `x` is a descendant of `t` exactly when `t` is an
      ancestor of `x`. */
  lemma DescendantAncestorDuality(h: Heap, t: TagId, x: TagId)
    requires Symmetric(h)
    ensures Reaches(h, Down, t, x) <==> Reaches(h, Up, x, t)
  {
    if Reaches(h, Down, t, x) {
      var p :| |p| >= 2 && p[0] == t && p[|p| - 1] == x && Chain(h, Down, p);
      ReverseChain(h, p);
      assert Reverse(p)[0] == x && Reverse(p)[|p| - 1] == t;
    }
    if Reaches(h, Up, x, t) {
      var p :| |p| >= 2 && p[0] == x && p[|p| - 1] == t && Chain(h, Up, p);
      ReverseUpChain(h, p);
      assert Reverse(p)[0] == t && Reverse(p)[|p| - 1] == x;
    }
  }
}
